=== FILE: README.md ===
# Horror game core, modelled in Dafny

A model of the rule-bearing core of a small browser horror game written in
TypeScript over a 3D engine. The engine, the DOM and the browser audio
element are abstracted away. What remains is stated as immutable datatypes
and pure transition functions, with proofs about them:

- **NPC animation selection** (`Npcs`): the NPC constructor, `findAnimation`
  (exact name pass, then case-insensitive substring pass, then the default
  idle patterns, then the first group), `findIdleByPattern`,
  `playAnimation`, `getAnimationNames` and `dispose`. Animation groups are
  their names plus an engine handle.
- **Player animation state** (`Players`): the name-to-group map, `playAnim`,
  the WASD-to-animation choice in `update`, and disposal.
- **Level editor document** (`Editor`, `EditorText`): the entity list with
  its selected index (add, remove, duplicate, select), gizmo callbacks,
  keyboard shortcuts, scale helpers, display names, the asset browser, and
  the string helpers. The colour helpers are modelled at byte level.
- **Managers**:
  - `Dialogues`: dialogue sequencing with a typewriter and line timeouts.
    Timers are explicit events.
  - `Audio`: the sound registry and the map of playing sounds.
  - `Input`: the held-key set.
  - `Levels`: the level registry and the ordering of a level switch.
- **Entity configuration and spawning** (`Entities`, `EntityFactory`): the
  default entity table, the remote-config merge, the portal-spawn
  discriminator, and the factory's spawn dispatch with its error cases.

Engine work that has an observable order (disposing, loading and starting a
level) is recorded as effects in a log. Values the engine or the network
would supply are parameters:

- loaded meshes
- the outcome of a fetch
- whether a level's `load` resolves
- the held keys
- the rounding function of `toFixed(2)`

Three defects in the source are modelled in both forms; see "Findings".
`Dialogues.Variant` selects the typewriter as written or as corrected. The
factory has `SpawnNpcAsWritten` next to `SpawnNpc`, and the NPC has
`PlayAnimationAsWritten` next to `PlayAnimation`.

`EntityFactory.ts` imports its table from `../config/entities`. The model
takes that table to be the one in `src/game/config/entities.ts`.

## Model

| member | source | states |
|---|---|---|
| Npcs.FindFirst | src/entities/NPC.ts:75 | `Array.prototype.find`: the returned index satisfies the predicate and every earlier group fails it. None means no group satisfies it. |
| Npcs.FindAny | src/entities/NPC.ts:74-85 | One matching pass over the requested names: none exactly when no requested name matches any group. Otherwise it returns the first match of the first requested name that matches at all. |
| Npcs.FindIdleByPattern | src/entities/NPC.ts:90-98 | None exactly for an empty group list; otherwise a valid group index. |
| Npcs.IdleByPatternIsFirstIdle | src/entities/NPC.ts:20-98 | The three default patterns amount to "the first group whose lower-cased name contains `idle`". Without such a group the first group is chosen, or none when there are no groups. |
| Npcs.PatternsMeanIdle | src/entities/NPC.ts:20-94 | "idle" and "Idle" match a group exactly when its lower-cased name contains "idle". "CharacterArmature\|Idle" matches only such groups. |
| Npcs.FirstPatternDecides | src/entities/NPC.ts:91-96 | When the first pattern decides exactly the idle groups and the later patterns match only idle groups, the pattern pass returns the first idle group. |
| Npcs.IdlePatternsLower | src/entities/NPC.ts:20-93 | The lower-cased default patterns are "idle", "idle", and a string containing "idle". |
| Npcs.FindAnimation | src/entities/NPC.ts:64-88 | No name, or an empty one, gives the idle-pattern result. An exact match, when any exists, is the exact pass's choice and comes before any substring match. A substring match is used only when no exact match exists. With neither, the idle-pattern result is used. |
| Npcs.IdleRequest | src/entities/NPC.ts:58-60 | A non-empty `animations.idle` wins; an absent or empty one falls through to `idleAnimation`. |
| Npcs.NewNpc | src/entities/NPC.ts:27-62 | Fails exactly when the mesh list is empty. The root is the first mesh and the scale defaults to 1. Shadows come from every mesh unless `castShadow` is false. The NPC starts not disposed. Exactly the group `findAnimation` picks for the idle request plays (`animations.idle` over `idleAnimation`), or none when it picks none; so one plays whenever there are groups. |
| Npcs.AnimationNames | src/entities/NPC.ts:108-110 | Same length and order as the groups, each the group's name. |
| Npcs.PlayAnimationAsWritten | src/entities/NPC.ts:112-124 | The program: returns false exactly when disposed or when no name equals or contains the query (case-sensitive), and then changes nothing. Otherwise only the first matching group is playing, and it always loops, whatever `loop` says. |
| Npcs.PlayAnimation | src/entities/NPC.ts:112-124 | As intended: the same result and the same group, which loops exactly when `loop` is true. |
| Npcs.PlayAnimationVariants | src/entities/NPC.ts:112-124 | Both versions start the same group or none. They differ exactly when a group starts and `loop` is false. |
| Npcs.PlayOnceLoopsAsWritten | src/entities/NPC.ts:112-124 | Playing "Walk" once on an NPC whose only group is "Walk" loops it in the program and plays it once as intended. |
| Npcs.StopAll | src/entities/NPC.ts:126-130 | No group is left playing. |
| Npcs.Dispose | src/entities/NPC.ts:132-137 | Afterwards disposed with nothing playing. Disposing again changes nothing, so the operation is idempotent. |
| Players.AnimMap | src/entities/Player.ts:79 | The keys are exactly the group names. Each maps to the last group of that name, so a later duplicate wins. |
| Players.PlayAnim | src/entities/Player.ts:160-173 | A no-op for the current name or an unknown name. Otherwise the new name becomes current and its group plays. When a non-empty current name is set, its group is stopped; otherwise no group stops and the new one joins those playing. |
| Players.NewPlayer | src/entities/Player.ts:78-98 | The map covers the group names. The player starts on Idle_Neutral when it exists, and otherwise with nothing playing. |
| Players.ChooseAnim | src/entities/Player.ts:114-149 | Each animation name paired with its key condition, both ways: S gives Run_Back; otherwise A gives Run_Left; otherwise D gives Run_Right; otherwise W gives Run; no WASD key gives Idle_Neutral. |
| Players.Update | src/entities/Player.ts:101-149 | Nothing after disposal; otherwise the animation chosen from the held keys is played. |
| Players.Dispose | src/entities/Player.ts:179-186 | Afterwards disposed with nothing playing; disposing a disposed player changes nothing. |
| Players.DisposedIsFrozen | src/entities/Player.ts:101-181 | No sequence of updates changes a disposed player. |
| Players.UpdateAll | src/entities/Player.ts:101-173 | A run of frames keeps the name map consistent with the groups and the current name known. |
| EditorText.ExtractAssetName | src/components/editor/EditorLogic.ts:76-79 | "Unknown" for the empty path; otherwise no longer than the path. |
| EditorText.ExtractAssetNameOfAssetPath | src/components/editor/EditorLogic.ts:76-79 | For a bundled model or sound `/assets/<n>.glb` or `/assets/<n>.mp3` whose name contains none of the stripped literals, the display name is `n`. |
| EditorText.StripGlb | src/components/editor/EditorLogic.ts:78 | Removing the first ".glb" and then the first ".mp3" from `n + ".glb"` gives `n` back. |
| EditorText.StripMp3 | src/components/editor/EditorLogic.ts:78 | The same for `n + ".mp3"`: the ".glb" removal does nothing and the ".mp3" removal drops the extension. |
| EditorText.ParseHex | src/components/editor/EditorLogic.ts:82 | Matches exactly six hex digits, in either case, with an optional leading '#'. |
| EditorText.HexToRgb | src/components/editor/EditorLogic.ts:81-90 | Anything that is not such a colour yields black. |
| EditorText.ToHex | src/components/editor/EditorLogic.ts:94 | `toString(16)` never yields the empty string. |
| EditorText.PadStart2 | src/components/editor/EditorLogic.ts:94 | `padStart(2, "0")` keeps a string of length two or more. A shorter one becomes two characters ending with the original. |
| EditorText.Hex2Digits | src/components/editor/EditorLogic.ts:94 | A byte is written as its two lowercase base-16 digits, high digit first. |
| EditorText.RgbToHex | src/components/editor/EditorLogic.ts:92-96 | A missing colour is "#000000"; every result is '#' plus six characters. |
| EditorText.FormattedDigits | src/components/editor/EditorLogic.ts:92-96 | A colour is written as '#' followed by the two digits of r, g and b. |
| EditorText.FormatThenParse | src/components/editor/EditorLogic.ts:81-96 | Round trip: parsing a formatted colour gives the colour back, and the text is a valid colour. |
| EditorText.ParseThenFormat | src/components/editor/EditorLogic.ts:81-96 | Round trip: formatting a parsed colour gives '#' plus the input's six digits in lower case. |
| EditorText.Hex2OfDigits | src/components/editor/EditorLogic.ts:85-94 | The byte made of digit values hi and lo is written as the digits for hi and lo. |
| EditorText.ByteDigits | src/components/editor/EditorLogic.ts:85-94 | Two hex digits read as a byte and written back give the same digits in lower case. |
| EditorText.LowerDigits | src/components/editor/EditorLogic.ts:82-94 | The three bytes of six digits, written back, are the digits in lower case. |
| EditorText.DigitOfValue | src/components/editor/EditorLogic.ts:85-94 | The digit written for a parsed digit's value is that digit in lower case. |
| EditorText.Spaced | src/components/editor/EditorLogic.ts:99 | Inserting a space before each uppercase letter lengthens the text by the number of uppercase letters. |
| EditorText.UpperFirst | src/components/editor/EditorLogic.ts:99 | Upper-casing the first character keeps the length. |
| EditorText.CamelToTitle | src/components/editor/EditorLogic.ts:98-100 | The output length is the input length plus the number of uppercase ASCII letters. |
| EditorText.UnspaceSpaced | src/components/editor/EditorLogic.ts:99 | Removing the spaces before uppercase letters undoes the insertion, so exactly those spaces were inserted. |
| EditorText.CamelToTitleInverse | src/components/editor/EditorLogic.ts:98-100 | Taking the inserted spaces out of a title gives the input with its first character upper-cased. |
| EditorText.TitleKeepsFirst | src/components/editor/EditorLogic.ts:99 | The case where the first character is uppercase or a line terminator, which `/^./` leaves alone. |
| EditorText.TitleUppersFirst | src/components/editor/EditorLogic.ts:99 | The case where the first character is upper-cased in place. |
| EditorText.FilterByQuery | src/components/editor/EditorLogic.ts:132-133 | The result holds exactly the entries whose lower-cased text contains the lower-cased query, and is no longer than the list. |
| EditorText.FilterByQueryAppend | src/components/editor/EditorLogic.ts:133 | The filter distributes over concatenation, so it keeps the list's order. |
| EditorText.EmptyQueryKeepsAll | src/components/editor/EditorLogic.ts:131 | The empty-query short-cut returns what the filter itself would. |
| Editor.Init | src/components/editor/EditorLogic.ts:104-117 | Starts on "level1" with its configuration, nothing selected, position mode, and no asset selection. |
| Editor.FilteredAssets | src/components/editor/EditorLogic.ts:129-134 | Uses the music list only while picking music. The result is the query filter of that list, which for the empty query is the whole list. |
| Editor.LoadLevel | src/components/editor/EditorLogic.ts:201-206 | A known id loads its configuration; an unknown one loads the default configuration renamed to the id. Selection and animations are always cleared. |
| Editor.CreateDefaultEntity | src/components/editor/EditorLogic.ts:255-283 | Each kind's defaults: an NPC on wife.glb at scale 1, a portal at height 1.5 to level1, a prop on home.glb with unit scaling. |
| Editor.AddEntity | src/components/editor/EditorLogic.ts:248-253 | Appends exactly one default entity, keeps the earlier ones, and selects the new last index. Nothing else in the editor state changes. |
| Editor.AddDefaultEntity | src/components/editor/EditorLogic.ts:248 | `addEntity()` without an argument appends a default NPC on the wife's model and selects it. Nothing else changes. |
| Editor.AddProp | src/components/editor/EditorLogic.ts:285-292 | Appends a default prop with the chosen asset, selects it and closes the browser. Nothing else changes. |
| Editor.SpliceStart | src/components/editor/EditorLogic.ts:295 | The position `splice` starts at is within the list. |
| Editor.SpliceOne | src/components/editor/EditorLogic.ts:295 | `splice(idx, 1)` removes the element at a valid index, or at `len + idx` for a negative one. An index below `-len` removes the first element of a non-empty list. It does nothing past the end. |
| Editor.RemoveEntity | src/components/editor/EditorLogic.ts:294-299 | The list is spliced and a valid index shortens it by one. Selection and animations are cleared. Nothing else changes. |
| Editor.RemoveKeepsOthers | src/components/editor/EditorLogic.ts:294-299 | Every other entity is kept, in order. |
| Editor.DuplicateEntity | src/components/editor/EditorLogic.ts:301-310 | A missing index changes nothing. Otherwise a copy moved one unit along x is appended, the original is untouched, and the copy is selected. Nothing else changes. |
| Editor.RemoveUndoesAdd | src/components/editor/EditorLogic.ts:248-310 | Removing the entity just added or duplicated restores the list. |
| Editor.SelectEntity | src/components/editor/EditorLogic.ts:312-315 | Selects the index and leaves the document alone. |
| Editor.DeselectEntity | src/components/editor/EditorLogic.ts:317-324 | Clears selection and animations and leaves the document alone. |
| Editor.OnObjectSelected | src/components/editor/EditorLogic.ts:413-421 | An "entity" pick selects its id; any other pick clears the selection. The document is unchanged. |
| Editor.OnTransformChange | src/components/editor/EditorLogic.ts:423-452 | Ignored unless the id exists and is selected. Otherwise only that entity changes, and in it only the position, rotation, scale and scaling: the position and rotation are rounded, and the scale goes to `scaling` for a prop and to scalar `scale` otherwise. The rest of the editor state is unchanged. |
| Editor.SetTransformMode | src/components/editor/EditorLogic.ts:454-455 | Only the gizmo mode changes. |
| Editor.HandleKey | src/components/editor/EditorLogic.ts:157-189 | Keys typed into a form field are ignored. g/r/s set the mode and Delete/Backspace remove the selection. Escape deselects and Shift+D duplicates. Any other key does nothing. |
| Editor.GetEntityScale | src/components/editor/EditorLogic.ts:485-490 | A prop's first scaling component, or 1 when it is zero or missing. Otherwise the numeric scale, an array scale's first component, or 1. |
| Editor.GetEntityScaleArray | src/components/editor/EditorLogic.ts:492-496 | A prop's own scaling; otherwise a uniform triple of the numeric scale, defaulting to 1. |
| Editor.SetEntityScale | src/components/editor/EditorLogic.ts:498-505 | A prop gets a uniform `scaling`; anything else gets a scalar `scale`. |
| Editor.SetThenGetScale | src/components/editor/EditorLogic.ts:485-505 | A scale that is set reads back as a uniform triple. It reads back as the slider value too, except that a prop's 0 reads as 1. |
| Editor.GetEntityName | src/components/editor/EditorLogic.ts:565-579 | A missing entity is "Unknown" and a non-empty name wins. Otherwise the name is derived from the kind: an NPC's model, "Prop: " plus the asset, or "Portal → " plus the target. |
| Editor.UnnamedNpcIsCalledByModel | src/components/editor/EditorLogic.ts:565-571 | An unnamed NPC on `/assets/<n>.glb` is called `n`. |
| Editor.GetModelDisplayName | src/components/editor/EditorLogic.ts:581-583 | "Unknown" when there is no entity or it has neither an asset nor an entity key. |
| Editor.GetIcon | src/components/editor/EditorLogic.ts:559-561 | "❓" exactly for kinds other than npc, prop and portal. |
| Editor.GetAvailableEntities | src/components/editor/EditorLogic.ts:585-587 | Exactly the keys of the entity table whose entry is an NPC. |
| Editor.GetPipelineRange | src/components/editor/EditorLogic.ts:56-595 | The five known settings get their ranges exactly: grain 0..50 step 1, vignette and chromatic aberration 0..10 step 0.1, contrast 0..3 step 0.1, exposure 0..5 step 0.1. Any other setting falls back to 0..100 in steps of 1. |
| Editor.OpenAssetBrowser | src/components/editor/EditorLogic.ts:328-331 | Opens the browser, targeting the given field and index, or nothing without a field. |
| Editor.OnAssetSelected | src/components/editor/EditorLogic.ts:333-368 | With no target the asset becomes a new prop. Music and environment set their field and nothing else in the configuration. An entity or asset pick for an existing entity changes only that entity in the configuration. An entity pick swaps its model: new asset, no entity key, blank animation names, and the engine's animation names when it reports some. An asset pick sets only the asset. The browser always closes. |
| Editor.SwapEntityModel | src/components/editor/EditorLogic.ts:370-381 | The entity gets the new asset, loses its entity key and gets blank idle and interact names. No other entity or configuration field changes. The current animation list becomes the engine's report when there is one and is kept otherwise. |
| Audio.Init | src/managers/AudioManager.ts:11-23 | Nothing plays and the five default sounds are registered. |
| Audio.ClampVolume | src/managers/AudioManager.ts:43 | The volume is within [0,1], equal to the input inside it, and 0 or 1 outside it. |
| Audio.Play | src/managers/AudioManager.ts:31-57 | An unregistered name changes nothing. Otherwise the name's one entry is replaced with the registered path, the loop flag and the clamped volume. No other name starts or stops. |
| Audio.PlayWithDefaults | src/managers/AudioManager.ts:31 | `play(name)` without the optional arguments plays once, at full volume. |
| Audio.Stop | src/managers/AudioManager.ts:59-65 | Removes only that name's entry. |
| Audio.StopAll | src/managers/AudioManager.ts:67-72 | Nothing is left playing. |
| Audio.Register | src/managers/AudioManager.ts:74-76 | Adds or overrides one registry entry and leaves playback alone. |
| Audio.PlayThenStop | src/managers/AudioManager.ts:31-65 | Playing and then stopping a sound leaves the others as before, and stopping twice is stopping once. |
| Input.Dispose | src/managers/InputManager.ts:31-38 | Empties the key set and detaches from any scene. |
| Input.Init | src/managers/InputManager.ts:17-29 | Starts from an empty key set and observes the given scene. |
| Input.OnKeyboard | src/managers/InputManager.ts:21-28 | Key-down adds the code, key-up removes it, and other events change nothing. Events from an unobserved scene are not seen. |
| Input.HeldIffLastWasDown | src/managers/InputManager.ts:21-42 | After any run of events, a code is held exactly when its last key-down or key-up was a key-down, or, with neither, when it was held before. |
| Input.LastIsDownStep | src/managers/InputManager.ts:21-28 | Reading the events from the front gives the same answer as reading from the back. |
| Dialogues.ThemeOf | src/managers/DialogueManager.ts:172 | "Demon" gets the demon theme and "Wife" the wife theme, each both ways. Any other speaker gets the default. |
| Dialogues.ApplyTheme | src/managers/DialogueManager.ts:163-177 | Afterwards the overlay holds exactly the speaker's theme class, or none for the default, so at most one theme. Other classes are unchanged. |
| Dialogues.ClearTypeTimer | src/managers/DialogueManager.ts:135-140 | Cancels exactly the interval the manager holds. |
| Dialogues.ClearTimers | src/managers/DialogueManager.ts:130-147 | Both timers are cleared, and only the held interval is cancelled. |
| Dialogues.End | src/managers/DialogueManager.ts:149-155 | Inactive, nothing current, line 0, both timers cleared, registrations kept. |
| Dialogues.Stop | src/managers/DialogueManager.ts:80-82 | Inactive, nothing current, line 0, both timers cleared. |
| Dialogues.StartTyping | src/managers/DialogueManager.ts:104-121 | The text is emptied, the cursor shown, and a new interval typing the text from 0 is held. As written the old interval keeps running; corrected, it is cancelled first. |
| Dialogues.NextLine | src/managers/DialogueManager.ts:88-102 | Past the last line the dialogue ends. Otherwise the line is typed and its timeout is scheduled for its duration, 3000 ms by default. |
| Dialogues.Register | src/managers/DialogueManager.ts:55-57 | Adds or replaces the dialogue under its id; nothing else changes. |
| Dialogues.Play | src/managers/DialogueManager.ts:59-78 | An unknown id changes nothing. Otherwise the speaker is the first line's, or "Unknown", and a dialogue with no lines ends at once. A non-empty one is active on line 0, types its first line, is themed after the speaker and is shown. |
| Dialogues.TypeTick | src/managers/DialogueManager.ts:112-120 | A typewriter tick reveals one more character and plays the typing sound at 0.4. Once the text is complete it clears the held timer and hides the cursor. A cancelled interval does nothing. |
| Dialogues.LineTimeout | src/managers/DialogueManager.ts:88-128 | The index moves on by exactly one and the next line starts, or the dialogue ends after its last line. |
| Dialogues.InitialConsistent | src/managers/DialogueManager.ts:36-213 | The manager starts in a consistent state. |
| Dialogues.NextLineConsistent | src/managers/DialogueManager.ts:88-102 | With the corrected typewriter, starting a line from a clean timer state is consistent. |
| Dialogues.PlayConsistent | src/managers/DialogueManager.ts:59-78 | With the corrected typewriter, `play` keeps the state consistent. |
| Dialogues.TickConsistent | src/managers/DialogueManager.ts:112-120 | A typewriter tick keeps the state consistent. |
| Dialogues.TimeoutConsistent | src/managers/DialogueManager.ts:123-128 | With the corrected typewriter, a line timeout keeps the state consistent. |
| Dialogues.StepConsistent | src/managers/DialogueManager.ts:55-155 | Every event keeps the state consistent with the corrected typewriter. |
| Dialogues.RunConsistent | src/managers/DialogueManager.ts:55-155 | Over any run of events the corrected typewriter keeps the state consistent. At most one interval runs, it is the held one and it types the current line, and the shown text is a prefix of the current line. |
| Dialogues.TypewriterReveals | src/managers/DialogueManager.ts:104-121 | After k ticks the shown text is the first min(k, \|text\|) characters. The tick after the last character clears the timer and hides the cursor. |
| Dialogues.TypewriterFrom | src/managers/DialogueManager.ts:112-120 | The same from any point part-way through the text. |
| Dialogues.TicksAfterClear | src/managers/DialogueManager.ts:135-140 | A cancelled interval's firings change nothing. |
| Dialogues.TimeoutsAdvance | src/managers/DialogueManager.ts:88-128 | After k timeouts a playing dialogue is on line i + k while lines remain. It has ended once the timeouts reach the line count. |
| Dialogues.PlayedDialogueEnds | src/managers/DialogueManager.ts:59-128 | A played dialogue of n lines is on line k after k < n timeouts and has ended after exactly n. |
| Dialogues.RunIgnoresAudio | src/managers/DialogueManager.ts:115 | The dialogue state after a run does not depend on the audio state. |
| Dialogues.AsWrittenLeaksInterval | src/managers/DialogueManager.ts:104-128 | As written, a line timed out before its typing finished leaves its interval running. On the next line, after the new line's own interval has stopped, the old interval puts the old line's text back. It is never cleared and the state ends inconsistent. |
| Dialogues.AsWrittenCancelsNewLine | src/managers/DialogueManager.ts:104-128 | As written, when the left-over interval of an earlier line completes, its `clearTypeTimer` cancels the interval of the line now current. The new line "xyz" stops at "x", its interval is gone, the old one is never cleared, and the state ends inconsistent. |
| Levels.Register | src/managers/LevelManager.ts:17-19 | Adds or overrides the factory for an id; other ids and the current level are unchanged. |
| Levels.Cleanup | src/managers/LevelManager.ts:26-32 | The dialogue is stopped, the input disposed and the old level, if any, disposed, in that order. Nothing is current afterwards. |
| Levels.Load | src/managers/LevelManager.ts:21-38 | An unknown id throws before any cleanup and changes nothing. Otherwise the work is ordered: stop dialogue, dispose input, dispose the old level, build, load, and start only when the load resolves. The new level is current and an error is reported exactly when the load fails. |
| Levels.Update | src/managers/LevelManager.ts:44-46 | A no-op without a current level; otherwise one update of that level. |
| Levels.DisposalsAppend | src/managers/LevelManager.ts:30 | Disposal counts add up over concatenated logs. |
| Levels.DisposalsOfOthers | src/managers/LevelManager.ts:26-37 | Appending effects that dispose nothing leaves every count unchanged. |
| Levels.NoDisposals | src/managers/LevelManager.ts:26-37 | A log without disposals counts none. |
| Levels.LoadDisposesOnce | src/managers/LevelManager.ts:21-38 | A load disposes the previous level exactly once and leaves every other level's count unchanged. No level is disposed twice. |
| Levels.UpdateDisposesNothing | src/managers/LevelManager.ts:44-46 | An update disposes nothing. |
| Levels.ApplyDisposesOnce | src/managers/LevelManager.ts:17-46 | Any single call keeps every level disposed at most once, and the current one not at all. |
| Levels.SessionDisposesOnce | src/managers/LevelManager.ts:17-46 | Over any session of registrations, loads and updates, no level is disposed twice and the current level is never a disposed one. |
| Entities.DefaultTableKinds | src/game/config/entities.ts:22-44 | The default table holds "wife" and "demon" as NPCs and "portal" as a portal, and nothing else. |
| Entities.LoadEntitiesConfig | src/game/config/entities.ts:46-61 | On any failure the table is unchanged. On success every loaded key maps to the loaded value, and the other keys keep their entries. |
| Entities.MergeIdempotent | src/game/config/entities.ts:55 | Merging the same data twice is merging it once. |
| Entities.NpcKeys | src/game/config/entities.ts:3-9 | Exactly the keys whose entry is an NPC. |
| EntityFactory.OptionsOf | src/factories/EntityFactory.ts:34-44 | The NPC gets the table entry's shadow flag and idle animation, and the given scale. |
| EntityFactory.BuildNpc | src/factories/EntityFactory.ts:24-45 | A key that is absent or not an NPC fails with "Unknown NPC entity". An empty asset path fails with "Asset path is required" and one that does not load with "Asset load failed" and the path. Otherwise it succeeds exactly when the loaded meshes are non-empty, with the loaded groups, the first mesh and the position. |
| EntityFactory.SpawnNpcAsWritten | src/factories/EntityFactory.ts:24-45 | As written the NPC always gets the table's scale. |
| EntityFactory.SpawnNpc | src/factories/EntityFactory.ts:24-45 | The same failures; on success the spawn record's scale, when present, overrides the table's. |
| EntityFactory.AsWrittenDiffersOnlyInScale | src/factories/EntityFactory.ts:24-45 | The as-written and corrected versions agree on failures and on everything but the scale. |
| EntityFactory.AsWrittenIgnoresSpawnScale | src/factories/EntityFactory.ts:37-44 | The wife spawned with scale 3 gets 0.95 as written and 3 corrected. |
| EntityFactory.SpawnPortal | src/factories/EntityFactory.ts:47-49 | A portal at the given position leading to the given level. |
| EntityFactory.ToDialogue | src/game/config/entities.ts:63-72 | A spawn record's dialogue keeps its id and its lines, in order, with speaker and duration present. |
| EntityFactory.PositionOf | src/factories/EntityFactory.ts:54 | The position comes componentwise from the record's triple. |
| EntityFactory.Spawn | src/factories/EntityFactory.ts:51-71 | A portal record becomes a portal without consulting the tables. Any other record spawns its NPC and succeeds exactly when the NPC does. The result is the spawned NPC or exactly the NPC spawner's error; a key that is not an NPC fails with "Unknown NPC entity". The dialogue manager changes only by registering the record's dialogue after a successful NPC spawn. `Spawn(AsWritten, …)` is the program, using `SpawnNpcAsWritten`; `Spawn(Corrected, …)` uses `SpawnNpc`. |
| EntityFactory.SpawnRegistersDialogue | src/factories/EntityFactory.ts:60-68 | A successful NPC spawn with a dialogue registers it under its id. |
| EntityFactory.PortalIgnoresTables | src/factories/EntityFactory.ts:56-58 | A portal spawn depends on neither the entity table nor the loaded assets. |
| EntityFactory.SpawnVariantsAgree | src/factories/EntityFactory.ts:51-71 | The program's `spawn` and the corrected one succeed and fail together, with the same error, and leave the same dialogue state. An NPC the program spawns has the table's scale and is otherwise the corrected NPC. |
| EntityFactory.SpawnAsWrittenIgnoresScale | src/factories/EntityFactory.ts:60-64 | A record for the wife with scale 3 spawns her at 0.95 in the program and at 3 corrected. |

## Left out

- The 3D engine, the physics engine, meshes, lights, cameras, shadows and gizmos are foreign calls. Meshes and animation groups become names, and the engine's results become parameters.
- `src/core/Engine.ts`, `src/physics.ts`, `src/managers/AssetManager.ts`, `src/entities/Portal.ts`, `src/entities/Demon.ts`, `src/levels/Level_1.ts`, `src/levels/Level_2.ts` and `src/index.ts` are engine glue, random flicker and bootstrapping. The asset manager's mesh loading is the `assets` parameter of the factory; its two errors ("Asset path is required", "Asset load failed: …") are `EntityFactory.FailedLoad`.
- `src/hero_anim.ts` is not part of this model. The player's animation names are taken to be the names of their keys (`Idle_Neutral`, `Run`, `Run_Back`, `Run_Left`, `Run_Right`).
- `src/config/levels` is not part of this model. The editor's `LEVELS` table and `DEFAULT_CONFIG` are parameters of `Editor.LoadLevel`, and `Editor.Init` takes `level1`'s configuration as a parameter.
- Real time is not modelled. Timers are events and an interleaving of them is a sequence of events. Promises, `setTimeout` retries and `await` are not modelled either.
- Levels.Load: each load runs to completion before the next call. Two overlapping `load` calls are not modelled. In the program, the first call's continuation re-reads `currentLevel` after its `await`, so it can start the second level before that level's load resolves, and that level is then started twice.
- Npcs.PlayAnimationAsWritten: the `loop` argument reaches the engine as the additive-blending flag, which the model does not represent; the model keeps the parameter but ignores it.
- The editor's `reloadLevelPromise` is engine work that runs asynchronously, and so is its deferred restore of the selection. `hotUpdate`, `loadEntityAnimations`, `previewAnimation`, `updateTransformFromUI` and `forceUpdateEntity` are engine calls too. `SwapEntityModel` takes the animation names the engine would report as a parameter.
- The editor's requirement, reward and fail/success-dialogue list helpers are not modelled. They are plain pushes and splices on per-NPC lists that no other operation reads.
- `copyJson`, `downloadJson`, `destroy` and `init` in the editor are clipboard, file download, listener and engine lifecycle. `isInputFocused` becomes a boolean parameter of `Editor.HandleKey`.
- Floating point is not modelled:
  - `toFixed(2)` in `onTransformChange` is a rounding function given as a parameter;
  - the colour helpers work on bytes, leaving out the `/ 255` and `Math.round(c * 255)` scaling;
  - the player's movement and look vectors are left out.
- `toLowerCase` and `toUpperCase` are modelled on ASCII letters only, leaving out Unicode case mapping.
- Values of the wrong JavaScript type are excluded by the datatypes. This covers `extractAssetName`'s non-string guard, and `Object.keys` order and prototype keys of the entity table, which `getAvailableEntities` returns as a set.
- The DOM is abstracted:
  - the dialogue overlay is a set of class names;
  - the text element is a string and the cursor a flag;
  - the `!this.textEl` and `!this.overlay` guards of `typeText`, `applyTheme` and `setSpeaker` take the element to exist, as it does whenever a document exists.
- The audio element's lifecycle is not modelled (`pause`, `src`, `load`, and the `ended` and `error` listeners). Its automatic cleanup is the same removal as `Audio.Stop`, and `isPlaying` is modelled as membership in the playing map.
- Console logging and warnings are not modelled.
- Dialogues.TypeTick: strings are sequences of Unicode code points, while `text.length` and `text.slice` count UTF-16 code units. For a line with characters outside the Basic Multilingual Plane the program takes one tick per code unit and can show half a surrogate pair, so its tick counts differ from `Dialogues.TypewriterReveals`.
- `disposeAudio` sets `src` to "" and calls `load()`, which can make a replaced element fire its once-only "error" listener. That listener's `cleanup(name)` would then dispose the new entry playing under the same name. The model keeps the new entry, because the element's events are not modelled.
- A level factory that throws leaves nothing current after the cleanup (`src/managers/LevelManager.ts:33`). Factories are tags in the model and always build a level, so this path is not expressed.
- Levels.Load: a level's `load` that rejects is a boolean parameter, and the model's error text for it ("load failed") is its own.
- EditorText.ExtractAssetName: the contract states only the "Unknown" case and a length bound. The exact result for bundled asset paths is stated by `EditorText.ExtractAssetNameOfAssetPath`.
- EditorText.RgbToHex: the contract states only the shape of the result. Its content is stated by `EditorText.FormattedDigits` and by the two round-trip lemmas.
- Editor.GetModelDisplayName: only the "Unknown" case is stated. The other cases are `ExtractAssetName` of the asset or entity key.
- Editor.GetIcon: states which kinds get the fallback icon, not which emoji each known kind gets. A kind named after a member of `Object.prototype` (such as "constructor" or "toString") looks up that member in the program, which is truthy, so the program returns it rather than "❓"; the model gives "❓" for every name outside the table.
- Editor.LoadLevel: an id named after a member of `Object.prototype` finds that member in the program's `LEVELS` lookup, and cloning it through JSON throws after `currentLevelId` is already set; the model, whose level table is a map, loads the default configuration for such an id.
- Editor.GetPipelineRange: a setting named after a member of `Object.prototype` (such as "constructor") yields that member in the program, which is truthy, so no fallback is taken; the model gives the fallback range for every name outside the table.
- Players.UpdateAll: states only that the player stays well-formed. Its behaviour is that of `Players.Update` frame by frame.

## Findings

| source | as written | input that shows it | evidently intended | confidence | as-written member | corrected member |
|---|---|---|---|---|---|---|
| src/managers/DialogueManager.ts:104-128 | `typeText` starts a new interval without cancelling the one still typing the previous line. A line whose timeout fires before its typing ends leaves its interval running, and that interval later overwrites the new line's text with the old line's. | Register and play a dialogue with lines "abc" (duration 50 ms) and "x". The first interval ticks once, the line timeout fires, then both intervals tick every 50 ms with the older first. The overlay ends showing "abc" on line "x". | `typeText` clears the previous type timer before starting its own, so at most one typewriter runs and it types the current line. | not executed | Dialogues.AsWrittenLeaksInterval | Dialogues.RunConsistent |
| src/managers/DialogueManager.ts:104-128 | The left-over interval of an earlier line, once its text is complete, runs `clearTypeTimer`, which cancels whatever interval the manager holds: the current line's. | Register and play a dialogue with lines "ab" (duration 50 ms) and "xyz". The first interval ticks once, the line timeout fires, then both intervals tick with the older first, and the older once more. Line "xyz" stops at "x" and its interval is gone. | `typeText` cancels the previous interval, so the only interval running is the current line's and its completion clears its own timer. | not executed | Dialogues.AsWrittenCancelsNewLine | Dialogues.RunConsistent |
| src/factories/EntityFactory.ts:37-44 | `spawnNPC` passes `scaleOverride` as a sixth argument to the NPC constructor, which takes five (src/entities/NPC.ts:27-33). The spawn record's `scale` is ignored and the table's scale is always used. | `spawn({entity: "wife", position: [0,0,0], scale: 3})` with the default table builds the wife at scale 0.95. | The record's scale, when present, overrides the table's. | not executed | EntityFactory.SpawnNpcAsWritten | EntityFactory.SpawnNpc |
| src/entities/NPC.ts:122 | `playAnimation(name, loop)` calls `anim.start(true, 1.0, anim.from, anim.to, loop)`. The engine's `start` takes `(loop, speedRatio, from, to, isAdditive)`, so the group always loops and `loop` only switches additive blending. | An NPC whose only group is "Walk", with `playAnimation("Walk", false)`: Walk starts looping. | The group loops exactly when `loop` is true (the parameter's default `loop = true` at NPC.ts:112 says so), i.e. `anim.start(loop, 1.0, anim.from, anim.to)`. | not executed | Npcs.PlayOnceLoopsAsWritten | Npcs.PlayAnimation |

=== FILE: audio.dfy ===
/** The sound registry and the set of sounds playing
    (src/managers/AudioManager.ts). An audio element is abstracted to the
    path it plays, its loop flag and its volume; the element's `ended` and
    `error` events and a rejected `play()` all run `cleanup`, which is the
    same removal as `Stop`. */
module Audio {

  datatype Entry = Entry(path: string, isLooping: bool, volume: real)

  datatype AudioState = AudioState(registry: map<string, string>, active: map<string, Entry>)

  const DefaultRegistry: map<string, string> := map[
    "teleport" := "/assets/sounds/teleport.mp3",
    "demon_voice" := "/assets/sounds/i_see_you_voice.mp3",
    "level_1" := "/assets/sounds/level_1.mp3",
    "level_2" := "/assets/sounds/level_2.mp3",
    "typing" := "/assets/sounds/beep.wav"
  ]

  /** The manager as first created: the default registry, nothing playing. */
  function Init(): (st: AudioState)
    ensures st.active == map[]
    ensures forall n :: n in {"teleport", "demon_voice", "level_1", "level_2", "typing"} ==> n in st.registry
  {
    AudioState(DefaultRegistry, map[])
  }

  /** `Math.max(0, Math.min(1, volume))`. */
  function ClampVolume(v: real): (r: real)
    ensures 0.0 <= r <= 1.0
    ensures 0.0 <= v <= 1.0 ==> r == v
    ensures v < 0.0 ==> r == 0.0
    ensures v > 1.0 ==> r == 1.0
  {
    if v < 0.0 then 0.0 else if v > 1.0 then 1.0 else v
  }

  /** `stop`: disposes and forgets the named sound; others are untouched. */
  function Stop(st: AudioState, name: string): (r: AudioState)
    ensures name !in r.active
    ensures r.active.Keys == st.active.Keys - {name}
    ensures forall n :: n in r.active ==> r.active[n] == st.active[n]
    ensures r.registry == st.registry
  {
    st.(active := st.active - {name})
  }

  /** `stopAll`. */
  function StopAll(st: AudioState): (r: AudioState)
    ensures r.active == map[] && r.registry == st.registry
  {
    st.(active := map[])
  }

  /** `play`: an unregistered name changes nothing (the source only warns);
      otherwise any running instance of the name is replaced by a new one. */
  function Play(st: AudioState, name: string, loop: bool, volume: real): (r: AudioState)
    ensures name !in st.registry || st.registry[name] == "" ==> r == st
    ensures name in st.registry && st.registry[name] != "" ==>
      r.active == st.active[name := Entry(st.registry[name], loop, ClampVolume(volume))]
    ensures r.registry == st.registry
    ensures forall n :: n != name ==> (n in r.active <==> n in st.active)
  {
    if name !in st.registry || st.registry[name] == "" then st
    else
      var stopped := Stop(st, name);
      stopped.(active := stopped.active[name := Entry(st.registry[name], loop, ClampVolume(volume))])
  }

  /** `play(name)` with the defaults: not looping, at full volume. */
  function PlayWithDefaults(st: AudioState, name: string): (r: AudioState)
    ensures name !in st.registry || st.registry[name] == "" ==> r == st
    ensures name in st.registry && st.registry[name] != "" ==>
      name in r.active && r.active[name] == Entry(st.registry[name], false, 1.0)
  {
    Play(st, name, false, 1.0)
  }

  /** `register`: adds or replaces one registry entry. */
  function Register(st: AudioState, name: string, path: string): (r: AudioState)
    ensures r.registry == st.registry[name := path]
    ensures r.active == st.active
  {
    st.(registry := st.registry[name := path])
  }

  /** `isPlaying`: an entry is kept exactly while its element plays. */
  predicate IsPlaying(st: AudioState, name: string) {
    name in st.active
  }

  /** Playing then stopping a sound leaves the other sounds as they were,
      and stopping twice is stopping once. */
  lemma PlayThenStop(st: AudioState, name: string, loop: bool, volume: real)
    ensures Stop(Play(st, name, loop, volume), name) == Stop(st, name)
    ensures Stop(Stop(st, name), name) == Stop(st, name)
  {
  }
}

=== FILE: dialogue.dfy ===
/** Dialogue sequencing (src/managers/DialogueManager.ts): registered
    dialogues, the current line, the typewriter that reveals a line one
    character per tick, the timeout that moves to the next line, and the
    speaker's theme on the overlay.

    Timers are events. Every typewriter interval still running is a job in
    `jobs`, keyed by its timer id; `typeTimer` is the id the manager keeps.
    `Variant` selects the source as written, where starting a line does not
    cancel the interval of the previous one, or the corrected behaviour,
    where it does. */
module Dialogues {
  import opened Wrappers
  import Audio

  const TypewriterSpeedMs := 50
  const DefaultLineDurationMs := 3000
  const TypingVolume := 0.4

  datatype Line = Line(speaker: Option<string>, text: string, duration: Option<int>)

  datatype Dialogue = Dialogue(id: string, lines: seq<Line>)

  datatype Theme = DefaultTheme | DemonTheme | WifeTheme

  datatype TypeJob = TypeJob(text: string, charIndex: nat)

  datatype Variant = AsWritten | Corrected

  /** `overlay` holds the overlay's classes that the manager toggles;
      `cursor` is the text element's "cursor" class. */
  datatype DialogueState = DialogueState(
    dialogues: map<string, Dialogue>,
    current: Option<Dialogue>,
    lineIndex: nat,
    active: bool,
    jobs: map<nat, TypeJob>,
    typeTimer: Option<nat>,
    lineTimer: Option<int>,
    nextTimerId: nat,
    shownText: string,
    cursor: bool,
    speaker: string,
    overlay: set<string>)

  /** The manager after `createUI`: hidden, nothing registered. */
  const Initial := DialogueState(map[], None, 0, false, map[], None, None, 0, "", false, "UNKNOWN", {"opacity-0", "translate-y-4"})

  // ---------------------------------------------------------------- themes

  function ThemeClass(t: Theme): string {
    match t
    case DefaultTheme => ""
    case DemonTheme => "theme-demon"
    case WifeTheme => "theme-wife"
  }

  const ThemeClasses: set<string> := {"theme-demon", "theme-wife"}

  /** The theme a speaker gets. */
  function ThemeOf(speaker: string): (t: Theme)
    ensures t == DemonTheme <==> speaker == "Demon"
    ensures t == WifeTheme <==> speaker == "Wife"
  {
    if speaker == "Demon" then DemonTheme else if speaker == "Wife" then WifeTheme else DefaultTheme
  }

  /** `applyTheme`: every theme class is removed, then the speaker's added. */
  function ApplyTheme(overlay: set<string>, speaker: string): (r: set<string>)
    ensures r * ThemeClasses == (if ThemeOf(speaker) == DefaultTheme then {} else {ThemeClass(ThemeOf(speaker))})
    ensures r - ThemeClasses == overlay - ThemeClasses
  {
    var cls := ThemeClass(ThemeOf(speaker));
    (overlay - ThemeClasses) + (if cls != "" then {cls} else {})
  }

  function Show(overlay: set<string>): set<string> {
    overlay - {"opacity-0", "translate-y-4"} + {"opacity-100", "translate-y-0"}
  }

  function Hide(overlay: set<string>): set<string> {
    overlay - {"opacity-100", "translate-y-0"} + {"opacity-0", "translate-y-4"}
  }

  // ---------------------------------------------------------------- timers

  function TimerSet(t: Option<nat>): set<nat> {
    if t.Some? then {t.value} else {}
  }

  /** `clearTypeTimer`: cancels the interval whose id the manager holds. */
  function ClearTypeTimer(st: DialogueState): (r: DialogueState)
    ensures r.typeTimer.None?
    ensures r.jobs == st.jobs - TimerSet(st.typeTimer)
  {
    if st.typeTimer.Some? then st.(jobs := st.jobs - {st.typeTimer.value}, typeTimer := None) else st
  }

  function ClearTimers(st: DialogueState): (r: DialogueState)
    ensures r.typeTimer.None? && r.lineTimer.None?
    ensures r.jobs == st.jobs - TimerSet(st.typeTimer)
  {
    ClearTypeTimer(st).(lineTimer := None)
  }

  /** `end` (and `stop`): timers cleared, nothing current, overlay hidden. */
  function End(st: DialogueState): (r: DialogueState)
    ensures !r.active && r.current.None? && r.lineIndex == 0
    ensures r.typeTimer.None? && r.lineTimer.None?
    ensures r.jobs == st.jobs - TimerSet(st.typeTimer)
    ensures r.dialogues == st.dialogues
  {
    ClearTimers(st).(active := false, current := None, lineIndex := 0, overlay := Hide(st.overlay))
  }

  /** `typeText`: empties the text, shows the cursor and starts a new
      interval. Only the corrected variant cancels the previous one. */
  function StartTyping(st: DialogueState, text: string, v: Variant): (r: DialogueState)
    ensures r.typeTimer == Some(st.nextTimerId) && r.nextTimerId == st.nextTimerId + 1
    ensures st.nextTimerId in r.jobs && r.jobs[st.nextTimerId] == TypeJob(text, 0) && r.shownText == "" && r.cursor
    ensures v == Corrected ==> r.jobs == (st.jobs - TimerSet(st.typeTimer))[st.nextTimerId := TypeJob(text, 0)]
    ensures v == AsWritten ==> r.jobs == st.jobs[st.nextTimerId := TypeJob(text, 0)]
  {
    var st' := if v == Corrected then ClearTypeTimer(st) else st;
    var id := st.nextTimerId;
    st'.(shownText := "", cursor := true,
         jobs := st'.jobs[id := TypeJob(text, 0)], typeTimer := Some(id), nextTimerId := id + 1)
  }

  /** `nextLine`: ends past the last line; otherwise types the line and
      schedules the timeout, 3000 ms unless the line says otherwise. */
  function NextLine(st: DialogueState, v: Variant): (r: DialogueState)
    ensures st.current.None? || st.lineIndex >= |st.current.value.lines| ==> r == End(st)
    ensures st.current.Some? && st.lineIndex < |st.current.value.lines| ==>
      var line := st.current.value.lines[st.lineIndex];
      r == StartTyping(st, line.text, v).(lineTimer := Some(line.duration.GetOr(DefaultLineDurationMs)))
  {
    if st.current.None? || st.lineIndex >= |st.current.value.lines| then End(st)
    else
      var line := st.current.value.lines[st.lineIndex];
      StartTyping(st, line.text, v).(lineTimer := Some(line.duration.GetOr(DefaultLineDurationMs)))
  }

  // ---------------------------------------------------------------- operations

  /** `register`: adds or replaces the dialogue under its id. */
  function Register(st: DialogueState, d: Dialogue): (r: DialogueState)
    ensures r.dialogues == st.dialogues[d.id := d]
    ensures r == st.(dialogues := r.dialogues)
  {
    st.(dialogues := st.dialogues[d.id := d])
  }

  /** The speaker shown for a dialogue: its first line's, else "Unknown". */
  function FirstSpeaker(d: Dialogue): string {
    if |d.lines| > 0 && d.lines[0].speaker.Some? then d.lines[0].speaker.value else "Unknown"
  }

  /** `play`: an unknown id changes nothing; otherwise the dialogue starts
      at line 0, themed after its first speaker, and a dialogue without
      lines ends at once. */
  function Play(st: DialogueState, id: string, v: Variant): (r: DialogueState)
    ensures id !in st.dialogues ==> r == st
    ensures r.dialogues == st.dialogues
    ensures id in st.dialogues ==> r.speaker == FirstSpeaker(st.dialogues[id])
    ensures id in st.dialogues && |st.dialogues[id].lines| == 0 ==> !r.active && r.current.None? && r.lineIndex == 0
    ensures id in st.dialogues && |st.dialogues[id].lines| > 0 ==>
      var d := st.dialogues[id];
      r.active && r.current == Some(d) && r.lineIndex == 0 &&
      r.lineTimer == Some(d.lines[0].duration.GetOr(DefaultLineDurationMs)) &&
      r.shownText == "" && r.typeTimer.Some? && r.typeTimer.value in r.jobs && r.jobs[r.typeTimer.value] == TypeJob(d.lines[0].text, 0) &&
      r.overlay * ThemeClasses == ApplyTheme(st.overlay, FirstSpeaker(d)) * ThemeClasses &&
      "opacity-100" in r.overlay
  {
    if id !in st.dialogues then st
    else
      var d := st.dialogues[id];
      var speaker := FirstSpeaker(d);
      var st' := ClearTimers(st).(current := Some(d), lineIndex := 0, active := true, speaker := speaker,
                                  overlay := Show(ApplyTheme(st.overlay, speaker)));
      NextLine(st', v)
  }

  /** `stop`. */
  function Stop(st: DialogueState): (r: DialogueState)
    ensures !r.active && r.current.None? && r.lineIndex == 0 && r.typeTimer.None? && r.lineTimer.None?
  {
    End(st)
  }

  /** `isActive`. */
  predicate IsActive(st: DialogueState) {
    st.active
  }

  /** One firing of the typewriter interval `id`: the next character is
      revealed with a typing click, or, once the text is complete, the
      manager's type timer is cleared and the cursor hidden. */
  function TypeTick(st: DialogueState, audio: Audio.AudioState, id: nat): (r: (DialogueState, Audio.AudioState))
    ensures id !in st.jobs ==> r == (st, audio)
    ensures id in st.jobs && st.jobs[id].charIndex < |st.jobs[id].text| ==>
      var j := st.jobs[id];
      r.0 == st.(jobs := st.jobs[id := j.(charIndex := j.charIndex + 1)], shownText := j.text[..j.charIndex + 1]) &&
      r.1 == Audio.Play(audio, "typing", false, TypingVolume)
    ensures id in st.jobs && st.jobs[id].charIndex >= |st.jobs[id].text| ==>
      r.0 == ClearTypeTimer(st).(cursor := false) && r.1 == audio
  {
    if id !in st.jobs then (st, audio)
    else
      var j := st.jobs[id];
      if j.charIndex < |j.text| then
        (st.(jobs := st.jobs[id := j.(charIndex := j.charIndex + 1)], shownText := j.text[..j.charIndex + 1]),
         Audio.Play(audio, "typing", false, TypingVolume))
      else (ClearTypeTimer(st).(cursor := false), audio)
  }

  /** The line timeout firing: the index moves on by one and the next line
      starts, or the dialogue ends after its last line. */
  function LineTimeout(st: DialogueState, v: Variant): (r: DialogueState)
    ensures st.lineTimer.None? ==> r == st
    ensures st.lineTimer.Some? && st.current.Some? && st.lineIndex + 1 < |st.current.value.lines| ==>
      var line := st.current.value.lines[st.lineIndex + 1];
      r.active == st.active && r.current == st.current && r.lineIndex == st.lineIndex + 1 &&
      r.lineTimer == Some(line.duration.GetOr(DefaultLineDurationMs)) &&
      r.typeTimer.Some? && r.typeTimer.value in r.jobs && r.jobs[r.typeTimer.value] == TypeJob(line.text, 0)
    ensures st.lineTimer.Some? && (st.current.None? || st.lineIndex + 1 >= |st.current.value.lines|) ==>
      !r.active && r.current.None? && r.lineIndex == 0 && r.lineTimer.None? && r.typeTimer.None?
  {
    if st.lineTimer.None? then st
    else NextLine(st.(lineTimer := None, lineIndex := st.lineIndex + 1), v)
  }

  // ---------------------------------------------------------------- events

  datatype Event = RegisterEv(d: Dialogue) | PlayEv(id: string) | StopEv | TickEv(timer: nat) | LineTimeoutEv

  function Step(st: DialogueState, audio: Audio.AudioState, e: Event, v: Variant): (DialogueState, Audio.AudioState) {
    match e
    case RegisterEv(d) => (Register(st, d), audio)
    case PlayEv(id) => (Play(st, id, v), audio)
    case StopEv => (Stop(st), audio)
    case TickEv(t) => TypeTick(st, audio, t)
    case LineTimeoutEv => (LineTimeout(st, v), audio)
  }

  function Run(st: DialogueState, audio: Audio.AudioState, events: seq<Event>, v: Variant): (DialogueState, Audio.AudioState)
    decreases |events|
  {
    if |events| == 0 then (st, audio)
    else
      var (st', audio') := Step(st, audio, events[0], v);
      Run(st', audio', events[1..], v)
  }

  // ---------------------------------------------------------------- invariant

  predicate IsPrefix(a: string, b: string) {
    |a| <= |b| && b[..|a|] == a
  }

  function CurrentText(st: DialogueState): string
    requires st.current.Some? && st.lineIndex < |st.current.value.lines|
  {
    st.current.value.lines[st.lineIndex].text
  }

  /** What the overlay is meant to show: at most one typewriter runs, it is
      the one the manager holds and it types the current line, and the
      shown text is always a prefix of the current line. */
  predicate Consistent(st: DialogueState) {
    && st.jobs.Keys == TimerSet(st.typeTimer)
    && (st.active <==> st.current.Some?)
    && (!st.active ==> st.lineIndex == 0 && st.typeTimer.None? && st.lineTimer.None?)
    && (st.active ==>
          st.lineIndex < |st.current.value.lines| && st.lineTimer.Some? && IsPrefix(st.shownText, CurrentText(st)))
    && (st.typeTimer.Some? ==>
          st.active &&
          var j := st.jobs[st.typeTimer.value];
          j.text == CurrentText(st) && j.charIndex <= |j.text| && st.shownText == j.text[..j.charIndex])
  }

  lemma InitialConsistent()
    ensures Consistent(Initial)
  {
  }

  lemma NextLineConsistent(st: DialogueState)
    requires st.jobs == map[] && st.typeTimer.None?
    requires st.active && st.current.Some?
    ensures Consistent(NextLine(st, Corrected))
  {
  }

  lemma PlayConsistent(st: DialogueState, id: string)
    requires Consistent(st)
    ensures Consistent(Play(st, id, Corrected))
  {
    if id in st.dialogues {
      var d := st.dialogues[id];
      var st' := ClearTimers(st).(current := Some(d), lineIndex := 0, active := true, speaker := FirstSpeaker(d),
                                  overlay := Show(ApplyTheme(st.overlay, FirstSpeaker(d))));
      NextLineConsistent(st');
    }
  }

  lemma TickConsistent(st: DialogueState, audio: Audio.AudioState, t: nat)
    requires Consistent(st)
    ensures Consistent(TypeTick(st, audio, t).0)
  {
    if t in st.jobs {
      var j := st.jobs[t];
      if j.charIndex < |j.text| {
        assert j.text[..j.charIndex + 1][..j.charIndex + 1] == j.text[..j.charIndex + 1];
      } else {
        assert j.text[..j.charIndex] == j.text;
      }
    }
  }

  lemma TimeoutConsistent(st: DialogueState)
    requires Consistent(st)
    ensures Consistent(LineTimeout(st, Corrected))
  {
    if st.lineTimer.Some? {
      var st' := st.(lineTimer := None, lineIndex := st.lineIndex + 1);
      if st.current.Some? && st.lineIndex + 1 < |st.current.value.lines| {
        var line := st.current.value.lines[st.lineIndex + 1];
        assert NextLine(st', Corrected) ==
          StartTyping(st', line.text, Corrected).(lineTimer := Some(line.duration.GetOr(DefaultLineDurationMs)));
      }
    }
  }

  /** In the corrected variant every event keeps the overlay consistent. */
  lemma StepConsistent(st: DialogueState, audio: Audio.AudioState, e: Event)
    requires Consistent(st)
    ensures Consistent(Step(st, audio, e, Corrected).0)
  {
    match e
    case RegisterEv(d) =>
    case PlayEv(id) => PlayConsistent(st, id);
    case StopEv =>
    case TickEv(t) => TickConsistent(st, audio, t);
    case LineTimeoutEv => TimeoutConsistent(st);
  }

  lemma {:induction false} RunConsistent(st: DialogueState, audio: Audio.AudioState, events: seq<Event>)
    requires Consistent(st)
    ensures Consistent(Run(st, audio, events, Corrected).0)
    decreases |events|
  {
    if |events| > 0 {
      StepConsistent(st, audio, events[0]);
      var (st', audio') := Step(st, audio, events[0], Corrected);
      RunConsistent(st', audio', events[1..]);
    }
  }

  // ---------------------------------------------------------------- typewriter

  /** `k` firings of interval `id`. */
  function Ticks(st: DialogueState, audio: Audio.AudioState, id: nat, k: nat): (DialogueState, Audio.AudioState)
    decreases k
  {
    if k == 0 then (st, audio)
    else
      var (st', audio') := TypeTick(st, audio, id);
      Ticks(st', audio', id, k - 1)
  }

  /** The typewriter: `k` ticks of the interval the manager holds reveal the
      first min(k, |text|) characters; the timer is cleared by the tick after
      the last character. */
  lemma {:induction false} TypewriterReveals(st: DialogueState, audio: Audio.AudioState, k: nat)
    requires st.typeTimer.Some? && st.typeTimer.value in st.jobs
    requires st.jobs[st.typeTimer.value].charIndex == 0 && st.shownText == ""
    ensures var t, text := st.typeTimer.value, st.jobs[st.typeTimer.value].text;
      var r := Ticks(st, audio, t, k).0;
      r.shownText == text[..if k < |text| then k else |text|] &&
      (k <= |text| ==> r.typeTimer == Some(t) && t in r.jobs && r.jobs[t] == TypeJob(text, k)) &&
      (k > |text| ==> r.typeTimer.None? && t !in r.jobs && !r.cursor)
  {
    var t := st.typeTimer.value;
    TypewriterFrom(st, audio, t, k);
  }

  lemma {:induction false} TypewriterFrom(st: DialogueState, audio: Audio.AudioState, t: nat, k: nat)
    requires st.typeTimer == Some(t) && t in st.jobs
    requires var j := st.jobs[t]; j.charIndex <= |j.text| && st.shownText == j.text[..j.charIndex]
    ensures var j := st.jobs[t];
      var r := Ticks(st, audio, t, k).0;
      var n := if j.charIndex + k < |j.text| then j.charIndex + k else |j.text|;
      r.shownText == j.text[..n] &&
      (j.charIndex + k <= |j.text| ==> r.typeTimer == Some(t) && t in r.jobs && r.jobs[t] == TypeJob(j.text, j.charIndex + k)) &&
      (j.charIndex + k > |j.text| ==> r.typeTimer.None? && t !in r.jobs && !r.cursor)
    decreases k
  {
    if k > 0 {
      var j := st.jobs[t];
      var (st', audio') := TypeTick(st, audio, t);
      if j.charIndex < |j.text| {
        TypewriterFrom(st', audio', t, k - 1);
      } else {
        assert j.text[..j.charIndex] == j.text;
        TicksAfterClear(st', audio', t, k - 1);
      }
    }
  }

  /** Once interval `t` is gone its firings change nothing. */
  lemma {:induction false} TicksAfterClear(st: DialogueState, audio: Audio.AudioState, t: nat, k: nat)
    requires t !in st.jobs
    ensures Ticks(st, audio, t, k).0 == st
    decreases k
  {
    if k > 0 {
      TicksAfterClear(st, audio, t, k - 1);
    }
  }

  // ---------------------------------------------------------------- lines

  /** `k` line timeouts. */
  function Timeouts(st: DialogueState, v: Variant, k: nat): DialogueState
    decreases k
  {
    if k == 0 then st else Timeouts(LineTimeout(st, v), v, k - 1)
  }

  /** Each timeout moves exactly one line on: a playing dialogue is on line
      i + k after k timeouts while lines remain, and has ended once the
      timeouts reach its line count. */
  lemma {:induction false} TimeoutsAdvance(st: DialogueState, v: Variant, k: nat)
    requires st.active && st.current.Some? && st.lineTimer.Some?
    requires st.lineIndex + k <= |st.current.value.lines|
    ensures var r := Timeouts(st, v, k);
      (st.lineIndex + k < |st.current.value.lines| ==>
         r.active && r.current == st.current && r.lineIndex == st.lineIndex + k && r.lineTimer.Some?) &&
      (k > 0 && st.lineIndex + k == |st.current.value.lines| ==> !r.active && r.current.None? && r.lineIndex == 0)
    decreases k
  {
    if k > 0 {
      var st' := LineTimeout(st, v);
      if st.lineIndex + 1 < |st.current.value.lines| {
        TimeoutsAdvance(st', v, k - 1);
      } else {
        assert k == 1;
      }
    }
  }

  /** A played dialogue of n lines ends after exactly n timeouts. */
  lemma PlayedDialogueEnds(st: DialogueState, id: string, v: Variant, k: nat)
    requires id in st.dialogues && 0 < k <= |st.dialogues[id].lines|
    ensures var r := Timeouts(Play(st, id, v), v, k);
      (k < |st.dialogues[id].lines| ==> r.active && r.lineIndex == k) &&
      (k == |st.dialogues[id].lines| ==> !r.active && r.current.None?)
  {
    TimeoutsAdvance(Play(st, id, v), v, k);
  }

  // ---------------------------------------------------------------- the leaked interval

  /** A first line too short in time for its text (50 ms for three
      characters), then a one-character line. */
  const LongThenShort := Dialogue("d", [Line(None, "abc", Some(50)), Line(None, "x", None)])

  /** The timers' firing order for that dialogue: the first interval fires
      once before the line timeout, then both intervals fire every 50 ms,
      the older one first. */
  function LeakEvent(i: nat): Event {
    if i == 0 then RegisterEv(LongThenShort)
    else if i == 1 then PlayEv("d")
    else if i == 3 then LineTimeoutEv
    else if i == 5 || i == 7 then TickEv(1)
    else TickEv(0)
  }

  const LeakTrace: seq<Event> := seq(9, (i: int) requires 0 <= i => LeakEvent(i))

  /** The manager with dialogue `d` registered and nothing playing. */
  function Registered(d: Dialogue): DialogueState {
    Initial.(dialogues := map[d.id := d])
  }

  /** The manager playing `d`, the only dialogue registered, for a speaker
      without a theme; the other arguments are the parts a trace changes. */
  function Playing(d: Dialogue, jobs: map<nat, TypeJob>, typeTimer: Option<nat>, shown: string, lineIndex: nat,
                   lineTimer: int, nextTimerId: nat, cursor: bool): DialogueState
  {
    DialogueState(map[d.id := d], Some(d), lineIndex, true, jobs, typeTimer, Some(lineTimer),
                  nextTimerId, shown, cursor, "Unknown", {"opacity-100", "translate-y-0"})
  }

  /** The states the trace visits as written. */
  function LeakState(i: nat): DialogueState {
    var d := LongThenShort;
    if i == 0 then Initial
    else if i == 1 then Registered(d)
    else if i == 2 then Playing(d, map[0 := TypeJob("abc", 0)], Some(0), "", 0, 50, 1, true)
    else if i == 3 then Playing(d, map[0 := TypeJob("abc", 1)], Some(0), "a", 0, 50, 1, true)
    else if i == 4 then Playing(d, map[0 := TypeJob("abc", 1), 1 := TypeJob("x", 0)], Some(1), "", 1, 3000, 2, true)
    else if i == 5 then Playing(d, map[0 := TypeJob("abc", 2), 1 := TypeJob("x", 0)], Some(1), "ab", 1, 3000, 2, true)
    else if i == 6 then Playing(d, map[0 := TypeJob("abc", 2), 1 := TypeJob("x", 1)], Some(1), "x", 1, 3000, 2, true)
    else if i == 7 then Playing(d, map[0 := TypeJob("abc", 3), 1 := TypeJob("x", 1)], Some(1), "abc", 1, 3000, 2, true)
    else if i == 8 then Playing(d, map[0 := TypeJob("abc", 3)], None, "abc", 1, 3000, 2, false)
    else Playing(d, map[0 := TypeJob("abc", 3)], None, "abc", 1, 3000, 2, false)
  }

  /** The typing clicks do not influence the dialogue state. */
  lemma {:induction false} RunIgnoresAudio(st: DialogueState, a: Audio.AudioState, b: Audio.AudioState, es: seq<Event>, v: Variant)
    ensures Run(st, a, es, v).0 == Run(st, b, es, v).0
    decreases |es|
  {
    if |es| > 0 {
      var (s1, a1) := Step(st, a, es[0], v);
      var (s2, b1) := Step(st, b, es[0], v);
      assert s1 == s2;
      RunIgnoresAudio(s1, a1, b1, es[1..], v);
    }
  }

  /** A run visits the given states when each event takes one to the next. */
  lemma {:induction false} RunFollows(at: nat -> DialogueState, start: nat, a: Audio.AudioState, es: seq<Event>, v: Variant)
    requires forall i :: 0 <= i < |es| ==> Step(at(start + i), a, es[i], v).0 == at(start + i + 1)
    ensures Run(at(start), a, es, v).0 == at(start + |es|)
    decreases |es|
  {
    if |es| > 0 {
      var next := Step(at(start), a, es[0], v);
      assert next.0 == at(start + 1);
      forall i | 0 <= i < |es[1..]|
        ensures Step(at(start + 1 + i), a, es[1..][i], v).0 == at(start + 1 + i + 1)
      {
        assert es[1..][i] == es[i + 1];
      }
      RunFollows(at, start + 1, a, es[1..], v);
      RunIgnoresAudio(next.0, next.1, a, es[1..], v);
      assert Run(at(start), a, es, v) == Run(next.0, next.1, es[1..], v);
    }
  }

  // The shapes of a trace's steps.

  lemma RegisterStep(d: Dialogue, a: Audio.AudioState, v: Variant)
    ensures Step(Initial, a, RegisterEv(d), v).0 == Registered(d)
  {
  }

  lemma PlayStep(d: Dialogue, a: Audio.AudioState, v: Variant)
    requires |d.lines| > 0 && d.lines[0].speaker.None?
    ensures Step(Registered(d), a, PlayEv(d.id), v).0 ==
      Playing(d, map[0 := TypeJob(d.lines[0].text, 0)], Some(0), "", 0, d.lines[0].duration.GetOr(DefaultLineDurationMs), 1, true)
  {
    assert ApplyTheme(Initial.overlay, "Unknown") == Initial.overlay;
  }

  lemma TickTypes(d: Dialogue, jobs: map<nat, TypeJob>, tt: Option<nat>, sh: string, li: nat, lt: int, nt: nat, c: bool,
                  a: Audio.AudioState, t: nat, v: Variant)
    requires t in jobs && jobs[t].charIndex < |jobs[t].text|
    ensures Step(Playing(d, jobs, tt, sh, li, lt, nt, c), a, TickEv(t), v).0 ==
      Playing(d, jobs[t := jobs[t].(charIndex := jobs[t].charIndex + 1)], tt, jobs[t].text[..jobs[t].charIndex + 1], li, lt, nt, c)
  {
  }

  lemma TickFinishes(d: Dialogue, jobs: map<nat, TypeJob>, tt: Option<nat>, sh: string, li: nat, lt: int, nt: nat, c: bool,
                     a: Audio.AudioState, t: nat, v: Variant)
    requires t in jobs && jobs[t].charIndex >= |jobs[t].text|
    ensures Step(Playing(d, jobs, tt, sh, li, lt, nt, c), a, TickEv(t), v).0 == Playing(d, jobs - TimerSet(tt), None, sh, li, lt, nt, false)
  {
  }

  lemma SecondLineStep(d: Dialogue, jobs: map<nat, TypeJob>, tt: Option<nat>, sh: string, lt: int, nt: nat, c: bool,
                       a: Audio.AudioState, v: Variant)
    requires |d.lines| > 1
    ensures Step(Playing(d, jobs, tt, sh, 0, lt, nt, c), a, LineTimeoutEv, v).0 ==
      Playing(d, (if v == Corrected then jobs - TimerSet(tt) else jobs)[nt := TypeJob(d.lines[1].text, 0)], Some(nt), "", 1,
              d.lines[1].duration.GetOr(DefaultLineDurationMs), nt + 1, true)
  {
  }

  lemma LeakStep0(a: Audio.AudioState)
    ensures Step(LeakState(0), a, LeakEvent(0), AsWritten).0 == LeakState(1)
  {
    RegisterStep(LongThenShort, a, AsWritten);
  }

  lemma LeakStep1(a: Audio.AudioState)
    ensures Step(LeakState(1), a, LeakEvent(1), AsWritten).0 == LeakState(2)
  {
    PlayStep(LongThenShort, a, AsWritten);
  }

  lemma LeakStep2(a: Audio.AudioState)
    ensures Step(LeakState(2), a, LeakEvent(2), AsWritten).0 == LeakState(3)
  {
    TickTypes(LongThenShort, map[0 := TypeJob("abc", 0)], Some(0), "", 0, 50, 1, true, a, 0, AsWritten);
  }

  lemma LeakStep3(a: Audio.AudioState)
    ensures Step(LeakState(3), a, LeakEvent(3), AsWritten).0 == LeakState(4)
  {
    SecondLineStep(LongThenShort, map[0 := TypeJob("abc", 1)], Some(0), "a", 50, 1, true, a, AsWritten);
  }

  lemma LeakStep4(a: Audio.AudioState)
    ensures Step(LeakState(4), a, LeakEvent(4), AsWritten).0 == LeakState(5)
  {
    TickTypes(LongThenShort, map[0 := TypeJob("abc", 1), 1 := TypeJob("x", 0)], Some(1), "", 1, 3000, 2, true, a, 0, AsWritten);
  }

  lemma LeakStep5(a: Audio.AudioState)
    ensures Step(LeakState(5), a, LeakEvent(5), AsWritten).0 == LeakState(6)
  {
    TickTypes(LongThenShort, map[0 := TypeJob("abc", 2), 1 := TypeJob("x", 0)], Some(1), "ab", 1, 3000, 2, true, a, 1, AsWritten);
  }

  lemma LeakStep6(a: Audio.AudioState)
    ensures Step(LeakState(6), a, LeakEvent(6), AsWritten).0 == LeakState(7)
  {
    TickTypes(LongThenShort, map[0 := TypeJob("abc", 2), 1 := TypeJob("x", 1)], Some(1), "x", 1, 3000, 2, true, a, 0, AsWritten);
  }

  lemma LeakStep7(a: Audio.AudioState)
    ensures Step(LeakState(7), a, LeakEvent(7), AsWritten).0 == LeakState(8)
  {
    TickFinishes(LongThenShort, map[0 := TypeJob("abc", 3), 1 := TypeJob("x", 1)], Some(1), "abc", 1, 3000, 2, true, a, 1, AsWritten);
  }

  lemma LeakStep8(a: Audio.AudioState)
    ensures Step(LeakState(8), a, LeakEvent(8), AsWritten).0 == LeakState(9)
  {
    TickFinishes(LongThenShort, map[0 := TypeJob("abc", 3)], None, "abc", 1, 3000, 2, false, a, 0, AsWritten);
  }

  lemma LeakSteps(i: nat, a: Audio.AudioState)
    requires i < |LeakTrace|
    ensures Step(LeakState(i), a, LeakEvent(i), AsWritten).0 == LeakState(i + 1)
  {
    if i == 0 {
      LeakStep0(a);
    } else if i == 1 {
      LeakStep1(a);
    } else if i == 2 {
      LeakStep2(a);
    } else if i == 3 {
      LeakStep3(a);
    } else if i == 4 {
      LeakStep4(a);
    } else if i == 5 {
      LeakStep5(a);
    } else if i == 6 {
      LeakStep6(a);
    } else if i == 7 {
      LeakStep7(a);
    } else if i == 8 {
      LeakStep8(a);
    }
  }

  /** As written, the first line's interval outlives its line: after the
      second line has been typed and its own interval has stopped, the old
      interval puts the first line's text back on screen while the second
      line is current, and nothing ever clears it. */
  lemma AsWrittenLeaksInterval(a: Audio.AudioState)
    ensures var r := Run(Initial, a, LeakTrace, AsWritten).0;
      r.active && r.current == Some(LongThenShort) && r.lineIndex == 1 && CurrentText(r) == "x" &&
      r.shownText == "abc" && r.typeTimer.None? && r.jobs == map[0 := TypeJob("abc", 3)] && !Consistent(r)
  {
    forall i | 0 <= i < |LeakTrace|
      ensures Step(LeakState(i), a, LeakTrace[i], AsWritten).0 == LeakState(i + 1)
    {
      assert LeakTrace[i] == LeakEvent(i);
      LeakSteps(i, a);
    }
    RunFollows(LeakState, 0, a, LeakTrace, AsWritten);
  }

  // ---------------------------------------------------------------- the cancelled line

  /** A two-character first line with 50 ms to show, then a three-character
      line. */
  const ShortThenLong := Dialogue("d", [Line(None, "ab", Some(50)), Line(None, "xyz", None)])

  /** The first interval fires once before the line timeout; afterwards
      both fire every 50 ms, the older one first. */
  function CancelEvent(i: nat): Event {
    if i == 0 then RegisterEv(ShortThenLong)
    else if i == 1 then PlayEv("d")
    else if i == 3 then LineTimeoutEv
    else if i == 5 then TickEv(1)
    else TickEv(0)
  }

  const CancelTrace: seq<Event> := seq(7, (i: int) requires 0 <= i => CancelEvent(i))

  /** The states that trace visits as written. */
  function CancelState(i: nat): DialogueState {
    var d := ShortThenLong;
    if i == 0 then Initial
    else if i == 1 then Registered(d)
    else if i == 2 then Playing(d, map[0 := TypeJob("ab", 0)], Some(0), "", 0, 50, 1, true)
    else if i == 3 then Playing(d, map[0 := TypeJob("ab", 1)], Some(0), "a", 0, 50, 1, true)
    else if i == 4 then Playing(d, map[0 := TypeJob("ab", 1), 1 := TypeJob("xyz", 0)], Some(1), "", 1, 3000, 2, true)
    else if i == 5 then Playing(d, map[0 := TypeJob("ab", 2), 1 := TypeJob("xyz", 0)], Some(1), "ab", 1, 3000, 2, true)
    else if i == 6 then Playing(d, map[0 := TypeJob("ab", 2), 1 := TypeJob("xyz", 1)], Some(1), "x", 1, 3000, 2, true)
    else Playing(d, map[0 := TypeJob("ab", 2)], None, "x", 1, 3000, 2, false)
  }

  lemma CancelStep0(a: Audio.AudioState)
    ensures Step(CancelState(0), a, CancelEvent(0), AsWritten).0 == CancelState(1)
  {
    RegisterStep(ShortThenLong, a, AsWritten);
  }

  lemma CancelStep1(a: Audio.AudioState)
    ensures Step(CancelState(1), a, CancelEvent(1), AsWritten).0 == CancelState(2)
  {
    PlayStep(ShortThenLong, a, AsWritten);
  }

  lemma CancelStep2(a: Audio.AudioState)
    ensures Step(CancelState(2), a, CancelEvent(2), AsWritten).0 == CancelState(3)
  {
    TickTypes(ShortThenLong, map[0 := TypeJob("ab", 0)], Some(0), "", 0, 50, 1, true, a, 0, AsWritten);
  }

  lemma CancelStep3(a: Audio.AudioState)
    ensures Step(CancelState(3), a, CancelEvent(3), AsWritten).0 == CancelState(4)
  {
    SecondLineStep(ShortThenLong, map[0 := TypeJob("ab", 1)], Some(0), "a", 50, 1, true, a, AsWritten);
  }

  lemma CancelStep4(a: Audio.AudioState)
    ensures Step(CancelState(4), a, CancelEvent(4), AsWritten).0 == CancelState(5)
  {
    TickTypes(ShortThenLong, map[0 := TypeJob("ab", 1), 1 := TypeJob("xyz", 0)], Some(1), "", 1, 3000, 2, true, a, 0, AsWritten);
  }

  lemma CancelStep5(a: Audio.AudioState)
    ensures Step(CancelState(5), a, CancelEvent(5), AsWritten).0 == CancelState(6)
  {
    TickTypes(ShortThenLong, map[0 := TypeJob("ab", 2), 1 := TypeJob("xyz", 0)], Some(1), "ab", 1, 3000, 2, true, a, 1, AsWritten);
  }

  lemma CancelStep6(a: Audio.AudioState)
    ensures Step(CancelState(6), a, CancelEvent(6), AsWritten).0 == CancelState(7)
  {
    TickFinishes(ShortThenLong, map[0 := TypeJob("ab", 2), 1 := TypeJob("xyz", 1)], Some(1), "x", 1, 3000, 2, true, a, 0, AsWritten);
  }

  lemma CancelSteps(i: nat, a: Audio.AudioState)
    requires i < |CancelTrace|
    ensures Step(CancelState(i), a, CancelEvent(i), AsWritten).0 == CancelState(i + 1)
  {
    if i == 0 {
      CancelStep0(a);
    } else if i == 1 {
      CancelStep1(a);
    } else if i == 2 {
      CancelStep2(a);
    } else if i == 3 {
      CancelStep3(a);
    } else if i == 4 {
      CancelStep4(a);
    } else if i == 5 {
      CancelStep5(a);
    } else if i == 6 {
      CancelStep6(a);
    }
  }

  /** As written, the old interval cancels the new line's typewriter: when
      the first line's text is complete, its interval clears the timer the
      manager holds, which by then is the second line's. The second line
      stops after its first character, its interval is gone, and the
      first line's interval is never cleared. */
  lemma AsWrittenCancelsNewLine(a: Audio.AudioState)
    ensures var r := Run(Initial, a, CancelTrace, AsWritten).0;
      r.active && r.current == Some(ShortThenLong) && r.lineIndex == 1 && CurrentText(r) == "xyz" &&
      r.shownText == "x" && r.typeTimer.None? && !r.cursor && 1 !in r.jobs &&
      r.jobs == map[0 := TypeJob("ab", 2)] && !Consistent(r)
  {
    forall i | 0 <= i < |CancelTrace|
      ensures Step(CancelState(i), a, CancelTrace[i], AsWritten).0 == CancelState(i + 1)
    {
      assert CancelTrace[i] == CancelEvent(i);
      CancelSteps(i, a);
    }
    RunFollows(CancelState, 0, a, CancelTrace, AsWritten);
  }
}

=== FILE: editor.dfy ===
/** The level editor's document model (src/components/editor/EditorLogic.ts):
    the level being edited, its entity list and the selected index, the
    transform callbacks, scale helpers, display names, the asset browser and
    the keyboard shortcuts. Engine calls (level reloads, gizmos, animation
    previews) are left out; values the engine would supply are parameters. */
module Editor {
  import opened Wrappers
  import opened Strings
  import opened Geometry
  import opened EditorText
  import Entities

  datatype EntityType = NpcType | PortalType | PropType | OtherType(name: string)

  datatype AnimNames = AnimNames(idle: string, interact: string)

  datatype PhysicsSpec = PhysicsSpec(enabled: bool, mass: real, impostor: string)

  /** The `scale` field: absent, a number, or (in older files) an array. */
  datatype ScaleValue = NoScale | ScalarScale(value: real) | ArrayScale(values: seq<real>)

  /** One entry of a level's `entities` list. */
  datatype Entity = Entity(
    kind: EntityType,
    asset: Option<string>,
    entityKey: Option<string>,
    name: Option<string>,
    position: Vec3,
    rotation: Option<Vec3>,
    scale: ScaleValue,
    scaling: Option<seq<real>>,
    targetLevel: Option<string>,
    animations: Option<AnimNames>,
    physics: Option<PhysicsSpec>)

  datatype LevelConfig = LevelConfig(id: string, entities: seq<Entity>, music: Option<string>, environmentAsset: string)

  datatype TransformMode = PositionMode | RotationMode | ScaleMode

  datatype AssetField = EntityField | AssetPathField | MusicField | EnvironmentField

  datatype AssetSelection = AssetSelection(index: Option<int>, field: AssetField)

  datatype EditorState = EditorState(
    currentLevelId: string,
    config: LevelConfig,
    selected: int,
    transformMode: TransformMode,
    currentEntityAnims: seq<string>,
    showAssetModal: bool,
    searchQuery: string,
    selectingAssetFor: Option<AssetSelection>)

  const AvailableAssets: seq<string> := [
    "/assets/Demon.glb", "/assets/home.glb", "/assets/man.glb", "/assets/room-large.glb", "/assets/wife.glb"
  ]

  const AvailableMusic: seq<string> := [
    "level_1", "level_2", "teleport", "demon_voice", "typing",
    "/assets/sounds/level_1.mp3", "/assets/sounds/level_2.mp3", "/assets/sounds/i_see_you_voice.mp3",
    "/assets/sounds/teleport.mp3", "/assets/sounds/typing.mp3", "/assets/sounds/beep.wav"
  ]

  /** `entities[i]` is defined. */
  predicate ValidIndex(entities: seq<Entity>, i: int) {
    0 <= i < |entities|
  }

  /** The state `editorLogic()` starts from, given the `level1` configuration. */
  function Init(level1: LevelConfig): (st: EditorState)
    ensures st.selected == -1 && st.currentEntityAnims == [] && st.selectingAssetFor.None?
    ensures st.currentLevelId == "level1" && st.config == level1 && st.transformMode == PositionMode
  {
    EditorState("level1", level1, -1, PositionMode, [], false, "", None)
  }

  // ---------------------------------------------------------------- search

  /** `filteredAssets`: the music list only while picking music, the whole
      list for an empty query, else the entries matching the query. */
  function FilteredAssets(st: EditorState): (r: seq<string>)
    ensures var source := if st.selectingAssetFor.Some? && st.selectingAssetFor.value.field == MusicField
                          then AvailableMusic else AvailableAssets;
            r == FilterByQuery(source, st.searchQuery)
  {
    var source := if st.selectingAssetFor.Some? && st.selectingAssetFor.value.field == MusicField
                  then AvailableMusic else AvailableAssets;
    if st.searchQuery == "" then (EmptyQueryKeepsAll(source); source)
    else FilterByQuery(source, st.searchQuery)
  }

  // ---------------------------------------------------------------- levels

  /** `loadLevel`: a known id loads its configuration, an unknown one the
      default configuration under that id; selection and animations clear. */
  function LoadLevel(st: EditorState, levels: map<string, LevelConfig>, defaultConfig: LevelConfig, id: string): (r: EditorState)
    ensures r.currentLevelId == id && r.selected == -1 && r.currentEntityAnims == []
    ensures id in levels ==> r.config == levels[id]
    ensures id !in levels ==> r.config == defaultConfig.(id := id)
    ensures r.transformMode == st.transformMode && r.selectingAssetFor == st.selectingAssetFor
  {
    st.(currentLevelId := id,
        config := if id in levels then levels[id] else defaultConfig.(id := id),
        selected := -1,
        currentEntityAnims := [])
  }

  // ---------------------------------------------------------------- entities

  /** `createDefaultEntity` for the three kinds the editor can create. */
  function CreateDefaultEntity(kind: EntityType): (e: Entity)
    requires !kind.OtherType?
    ensures e.kind == kind
    ensures kind == PortalType ==> e.targetLevel == Some("level1") && e.position == Vec3(0.0, 1.5, 0.0)
    ensures kind == NpcType ==> e.asset == Some("/assets/wife.glb") && e.scale == ScalarScale(1.0)
    ensures kind == PropType ==> e.asset == Some("/assets/home.glb") && e.scaling == Some([1.0, 1.0, 1.0])
  {
    var none := Entity(kind, None, None, None, Vec3(0.0, 0.0, 0.0), None, NoScale, None, None, None, None);
    match kind
    case NpcType =>
      none.(asset := Some("/assets/wife.glb"), name := Some("New NPC"), rotation := Some(Vec3(0.0, 0.0, 0.0)),
            scale := ScalarScale(1.0), animations := Some(AnimNames("", "")))
    case PortalType =>
      none.(position := Vec3(0.0, 1.5, 0.0), targetLevel := Some("level1"))
    case PropType =>
      none.(asset := Some("/assets/home.glb"), rotation := Some(Vec3(0.0, 0.0, 0.0)), scaling := Some([1.0, 1.0, 1.0]),
            physics := Some(PhysicsSpec(false, 0.0, "mesh")))
  }

  /** `addEntity()`: the kind defaults to an NPC. */
  function AddDefaultEntity(st: EditorState): (r: EditorState)
    ensures |r.config.entities| == |st.config.entities| + 1
    ensures r.config.entities[..|st.config.entities|] == st.config.entities
    ensures r.config.entities[|st.config.entities|].kind == NpcType
    ensures r.config.entities[|st.config.entities|].asset == Some("/assets/wife.glb")
    ensures r.selected == |st.config.entities|
    ensures r == st.(config := st.config.(entities := r.config.entities), selected := r.selected)
  {
    AddEntity(st, NpcType)
  }

  /** `addEntity`: appends a default entity and selects it. */
  function AddEntity(st: EditorState, kind: EntityType): (r: EditorState)
    requires !kind.OtherType?
    ensures |r.config.entities| == |st.config.entities| + 1
    ensures r.config.entities[..|st.config.entities|] == st.config.entities
    ensures r.config.entities[|st.config.entities|] == CreateDefaultEntity(kind)
    ensures r.selected == |r.config.entities| - 1
    ensures r == st.(config := st.config.(entities := r.config.entities), selected := r.selected)
  {
    var es := st.config.entities + [CreateDefaultEntity(kind)];
    st.(config := st.config.(entities := es), selected := |es| - 1)
  }

  /** `addProp`: appends a prop with the chosen asset, selects it and
      closes the asset browser. */
  function AddProp(st: EditorState, assetPath: string): (r: EditorState)
    ensures |r.config.entities| == |st.config.entities| + 1
    ensures r.config.entities[..|st.config.entities|] == st.config.entities
    ensures r.config.entities[|st.config.entities|] == CreateDefaultEntity(PropType).(asset := Some(assetPath))
    ensures r.selected == |st.config.entities| && !r.showAssetModal
    ensures r == st.(config := st.config.(entities := r.config.entities), selected := r.selected, showAssetModal := false)
  {
    var es := st.config.entities + [CreateDefaultEntity(PropType).(asset := Some(assetPath))];
    st.(config := st.config.(entities := es), selected := |es| - 1, showAssetModal := false)
  }

  /** The position `Array.prototype.splice(idx, 1)` removes at: negative
      indices count from the end. */
  function SpliceStart(len: nat, idx: int): (start: nat)
    ensures start <= len
  {
    if idx < 0 then (if len + idx < 0 then 0 else len + idx) else if idx > len then len else idx
  }

  /** `entities.splice(idx, 1)`. */
  function SpliceOne<T>(s: seq<T>, idx: int): (r: seq<T>)
    ensures 0 <= idx < |s| ==> r == s[..idx] + s[idx + 1..]
    ensures idx >= |s| ==> r == s
    ensures -|s| <= idx < 0 ==> r == s[..|s| + idx] + s[|s| + idx + 1..]
    ensures idx < -|s| && |s| > 0 ==> r == s[1..]
  {
    var start := SpliceStart(|s|, idx);
    if start < |s| then s[..start] + s[start + 1..] else s
  }

  /** `removeEntity`: removes the entity at `idx`, clears the selection. */
  function RemoveEntity(st: EditorState, idx: int): (r: EditorState)
    ensures r.config.entities == SpliceOne(st.config.entities, idx)
    ensures r.selected == -1 && r.currentEntityAnims == []
    ensures ValidIndex(st.config.entities, idx) ==> |r.config.entities| == |st.config.entities| - 1
    ensures r == st.(config := st.config.(entities := r.config.entities), selected := -1, currentEntityAnims := [])
  {
    st.(config := st.config.(entities := SpliceOne(st.config.entities, idx)), selected := -1, currentEntityAnims := [])
  }

  /** Removing a valid index keeps every other entity, in order. */
  lemma RemoveKeepsOthers(st: EditorState, idx: int)
    requires ValidIndex(st.config.entities, idx)
    ensures var es, rs := st.config.entities, RemoveEntity(st, idx).config.entities;
      (forall j :: 0 <= j < idx ==> rs[j] == es[j]) &&
      (forall j :: idx <= j < |rs| ==> rs[j] == es[j + 1])
  {
  }

  /** `duplicateEntity`: nothing for a missing index; otherwise appends a
      copy moved one unit along x and selects it. */
  function DuplicateEntity(st: EditorState, idx: int): (r: EditorState)
    ensures !ValidIndex(st.config.entities, idx) ==> r == st
    ensures ValidIndex(st.config.entities, idx) ==>
      var e := st.config.entities[idx];
      r.config.entities == st.config.entities + [e.(position := e.position.(x := e.position.x + 1.0))] &&
      r.selected == |st.config.entities|
    ensures ValidIndex(st.config.entities, idx) ==>
      r == st.(config := st.config.(entities := r.config.entities), selected := r.selected)
  {
    if !ValidIndex(st.config.entities, idx) then st
    else
      var e := st.config.entities[idx];
      var es := st.config.entities + [e.(position := e.position.(x := e.position.x + 1.0))];
      st.(config := st.config.(entities := es), selected := |es| - 1)
  }

  /** Removing the entity just added or duplicated restores the list. */
  lemma {:induction false} RemoveUndoesAdd(st: EditorState, kind: EntityType, idx: int)
    requires !kind.OtherType?
    ensures RemoveEntity(AddEntity(st, kind), |st.config.entities|).config.entities == st.config.entities
    ensures RemoveEntity(DuplicateEntity(st, idx), |st.config.entities|).config.entities == st.config.entities
  {
    var a := AddEntity(st, kind).config.entities;
    assert a[..|st.config.entities|] + a[|st.config.entities| + 1..] == st.config.entities;
  }

  /** `selectEntity` (the animation list arrives later from the engine). */
  function SelectEntity(st: EditorState, idx: int): (r: EditorState)
    ensures r.selected == idx && r.config == st.config
  {
    st.(selected := idx)
  }

  /** `deselectEntity`. */
  function DeselectEntity(st: EditorState): (r: EditorState)
    ensures r.selected == -1 && r.currentEntityAnims == [] && r.config == st.config
  {
    st.(selected := -1, currentEntityAnims := [])
  }

  /** `onObjectSelected`: an entity pick selects it, anything else clears. */
  function OnObjectSelected(st: EditorState, pickType: string, id: int): (r: EditorState)
    ensures pickType == "entity" ==> r.selected == id && r.currentEntityAnims == st.currentEntityAnims
    ensures pickType != "entity" ==> r.selected == -1 && r.currentEntityAnims == []
    ensures r.config == st.config
  {
    if pickType == "entity" then st.(selected := id)
    else st.(selected := -1, currentEntityAnims := [])
  }

  /** `onTransformChange`: applies a gizmo edit to the selected entity.
      `round` is `parseFloat(x.toFixed(2))`. */
  function OnTransformChange(st: EditorState, id: int, pos: Vec3, rot: Option<Vec3>, scale: Option<Vec3>,
                             round: real -> real): (r: EditorState)
    ensures !ValidIndex(st.config.entities, id) || st.selected != id ==> r == st
    ensures |r.config.entities| == |st.config.entities|
    ensures ValidIndex(st.config.entities, id) && st.selected == id ==>
      var e, e' := st.config.entities[id], r.config.entities[id];
      (forall j :: 0 <= j < |st.config.entities| && j != id ==> r.config.entities[j] == st.config.entities[j]) &&
      e'.position == Vec3(round(pos.x), round(pos.y), round(pos.z)) &&
      e'.rotation == (if rot.Some? then Some(Vec3(round(rot.value.x), round(rot.value.y), round(rot.value.z))) else e.rotation) &&
      (scale.Some? && e.kind == PropType ==>
        e'.scaling == Some([round(scale.value.x), round(scale.value.y), round(scale.value.z)]) && e'.scale == e.scale) &&
      (scale.Some? && e.kind != PropType ==> e'.scale == ScalarScale(round(scale.value.x)) && e'.scaling == e.scaling) &&
      (scale.None? ==> e'.scale == e.scale && e'.scaling == e.scaling) &&
      e'.kind == e.kind && e'.asset == e.asset && e'.name == e.name && r.selected == st.selected
    ensures ValidIndex(st.config.entities, id) && st.selected == id ==>
      r == st.(config := st.config.(entities := st.config.entities[id := r.config.entities[id]]))
    ensures ValidIndex(st.config.entities, id) && st.selected == id ==>
      var e' := r.config.entities[id];
      e' == st.config.entities[id].(position := e'.position, rotation := e'.rotation, scale := e'.scale, scaling := e'.scaling)
  {
    if !ValidIndex(st.config.entities, id) || st.selected != id then st
    else
      var e := st.config.entities[id];
      var e1 := e.(position := Vec3(round(pos.x), round(pos.y), round(pos.z)));
      var e2 := if rot.Some? then e1.(rotation := Some(Vec3(round(rot.value.x), round(rot.value.y), round(rot.value.z)))) else e1;
      var e3 :=
        if scale.None? then e2
        else if e.kind == PropType then e2.(scaling := Some([round(scale.value.x), round(scale.value.y), round(scale.value.z)]))
        else e2.(scale := ScalarScale(round(scale.value.x)));
      st.(config := st.config.(entities := st.config.entities[id := e3]))
  }

  /** `setTransformMode`. */
  function SetTransformMode(st: EditorState, mode: TransformMode): (r: EditorState)
    ensures r == st.(transformMode := mode)
  {
    st.(transformMode := mode)
  }

  /** The keyboard shortcuts: g/r/s pick the gizmo mode, Delete/Backspace
      remove the selection, Escape deselects, Shift+D duplicates. Keys typed
      into an input, text area or select are ignored. */
  function HandleKey(st: EditorState, key: string, shift: bool, inputFocused: bool): (r: EditorState)
    ensures inputFocused ==> r == st
    ensures !inputFocused && Lower(key) == "g" ==> r == SetTransformMode(st, PositionMode)
    ensures !inputFocused && Lower(key) == "r" ==> r == SetTransformMode(st, RotationMode)
    ensures !inputFocused && Lower(key) == "s" ==> r == SetTransformMode(st, ScaleMode)
    ensures !inputFocused && (Lower(key) == "delete" || Lower(key) == "backspace") ==>
      r == (if st.selected != -1 then RemoveEntity(st, st.selected) else st)
    ensures !inputFocused && Lower(key) == "escape" ==> r == DeselectEntity(st)
    ensures !inputFocused && Lower(key) == "d" ==>
      r == (if shift && st.selected != -1 then DuplicateEntity(st, st.selected) else st)
    ensures !inputFocused && Lower(key) !in {"g", "r", "s", "delete", "backspace", "escape", "d"} ==> r == st
  {
    if inputFocused then st
    else
      var k := Lower(key);
      if k == "g" then SetTransformMode(st, PositionMode)
      else if k == "r" then SetTransformMode(st, RotationMode)
      else if k == "s" then SetTransformMode(st, ScaleMode)
      else if k == "delete" || k == "backspace" then (if st.selected != -1 then RemoveEntity(st, st.selected) else st)
      else if k == "escape" then DeselectEntity(st)
      else if k == "d" then (if shift && st.selected != -1 then DuplicateEntity(st, st.selected) else st)
      else st
  }

  // ---------------------------------------------------------------- scale

  /** `x || 1` for a number: zero falls back to one. */
  function OrOne(x: real): real {
    if x == 0.0 then 1.0 else x
  }

  /** `scaling[0] || 1`, where a missing first element is `undefined`. */
  function FirstOrOne(xs: seq<real>): real {
    if |xs| == 0 then 1.0 else OrOne(xs[0])
  }

  /** `getEntityScale`: the one number the scale slider shows. */
  function GetEntityScale(e: Entity): (v: real)
    ensures e.kind == PropType && e.scaling.Some? ==> v == FirstOrOne(e.scaling.value)
    ensures !(e.kind == PropType && e.scaling.Some?) ==>
      v == (match e.scale
            case ScalarScale(s) => s
            case ArrayScale(xs) => FirstOrOne(xs)
            case NoScale => 1.0)
  {
    if e.kind == PropType && e.scaling.Some? then FirstOrOne(e.scaling.value)
    else match e.scale
      case ScalarScale(s) => s
      case ArrayScale(xs) => FirstOrOne(xs)
      case NoScale => 1.0
  }

  /** `getEntityScaleArray`: a prop's own scaling, else a uniform triple of
      the numeric scale, defaulting to one. */
  function GetEntityScaleArray(e: Entity): (r: seq<real>)
    ensures e.kind == PropType && e.scaling.Some? ==> r == e.scaling.value
    ensures !(e.kind == PropType && e.scaling.Some?) ==>
      |r| == 3 && r[0] == r[1] == r[2] && r[0] == (if e.scale.ScalarScale? then e.scale.value else 1.0)
  {
    if e.kind == PropType && e.scaling.Some? then e.scaling.value
    else
      var s := if e.scale.ScalarScale? then e.scale.value else 1.0;
      [s, s, s]
  }

  /** `setEntityScale`: props store a uniform scaling, everything else a
      number. */
  function SetEntityScale(e: Entity, value: real): (r: Entity)
    ensures e.kind == PropType ==> r == e.(scaling := Some([value, value, value]))
    ensures e.kind != PropType ==> r == e.(scale := ScalarScale(value))
  {
    if e.kind == PropType then e.(scaling := Some([value, value, value])) else e.(scale := ScalarScale(value))
  }

  /** Reading back a scale that was set gives it back: as a uniform triple
      always, and as the slider value except for a prop's zero, which reads
      as one. */
  lemma SetThenGetScale(e: Entity, value: real)
    ensures GetEntityScaleArray(SetEntityScale(e, value)) == [value, value, value]
    ensures GetEntityScale(SetEntityScale(e, value)) == (if e.kind == PropType then OrOne(value) else value)
  {
  }

  // ---------------------------------------------------------------- names

  /** `x || y` on optional strings: an absent or empty value falls through. */
  function OrElse(x: Option<string>, y: string): string {
    if x.Some? && x.value != "" then x.value else y
  }

  /** `getEntityName`: an explicit name wins; otherwise a name derived from
      the kind. `None` is a missing entity. */
  function GetEntityName(e: Option<Entity>): (r: string)
    ensures e.None? ==> r == "Unknown"
    ensures e.Some? && e.value.name.Some? && e.value.name.value != "" ==> r == e.value.name.value
    ensures e.Some? && OrElse(e.value.name, "") == "" ==>
      r == (match e.value.kind
            case NpcType => ExtractAssetName(OrElse(e.value.asset, OrElse(e.value.entityKey, "Unknown")))
            case PropType => "Prop: " + (if e.value.asset.Some? then ExtractAssetName(e.value.asset.value) else "Unknown")
            case PortalType => "Portal \U{2192} " + (if e.value.targetLevel.Some? then e.value.targetLevel.value else "undefined")
            case OtherType(_) => "Unknown")
  {
    match e
    case None => "Unknown"
    case Some(ent) =>
      if ent.name.Some? && ent.name.value != "" then ent.name.value
      else match ent.kind
        case NpcType => ExtractAssetName(OrElse(ent.asset, OrElse(ent.entityKey, "Unknown")))
        case PropType => "Prop: " + (if ent.asset.Some? then ExtractAssetName(ent.asset.value) else "Unknown")
        case PortalType => "Portal \U{2192} " + (if ent.targetLevel.Some? then ent.targetLevel.value else "undefined")
        case OtherType(_) => "Unknown"
  }

  /** An unnamed NPC built from a bundled model is called by the model's name. */
  lemma UnnamedNpcIsCalledByModel(e: Entity, n: string)
    requires e.kind == NpcType && OrElse(e.name, "") == "" && e.asset == Some("/assets/" + n + ".glb")
    requires IsPlainName(n)
    ensures GetEntityName(Some(e)) == n
  {
    ExtractAssetNameOfAssetPath(n, ".glb");
  }

  /** `getModelDisplayName`. */
  function GetModelDisplayName(e: Option<Entity>): (r: string)
    ensures e.None? || OrElse(e.value.asset, OrElse(e.value.entityKey, "")) == "" ==> r == "Unknown"
  {
    ExtractAssetName(if e.Some? then OrElse(e.value.asset, OrElse(e.value.entityKey, "")) else "")
  }

  /** `getIcon`. */
  function GetIcon(kind: string): (r: string)
    ensures kind !in {"npc", "prop", "portal"} ==> r == "\U{2753}"
    ensures kind in {"npc", "prop", "portal"} ==> r != "\U{2753}"
  {
    if kind == "npc" then "\U{1F464}"
    else if kind == "prop" then "\U{1F4E6}"
    else if kind == "portal" then "\U{1F6AA}"
    else "\U{2753}"
  }

  /** `getAvailableEntities`: the NPC keys of the entity table. */
  function GetAvailableEntities(entities: map<string, Entities.EntityConfig>): (r: set<string>)
    ensures forall k :: k in r <==> k in entities && entities[k].NpcConfig?
  {
    Entities.NpcKeys(entities)
  }

  datatype Range = Range(min: real, max: real, step: real)

  /** The slider ranges of the post-processing settings. */
  const PipelineRanges: map<string, Range> := map[
    "grain" := Range(0.0, 50.0, 1.0),
    "vignette" := Range(0.0, 10.0, 0.1),
    "chromaticAberration" := Range(0.0, 10.0, 0.1),
    "contrast" := Range(0.0, 3.0, 0.1),
    "exposure" := Range(0.0, 5.0, 0.1)]

  /** `getPipelineRange`: the slider range of a post-processing setting,
      falling back to 0..100 in steps of 1. */
  function GetPipelineRange(setting: string): (r: Range)
    ensures setting == "grain" ==> r == Range(0.0, 50.0, 1.0)
    ensures setting == "vignette" ==> r == Range(0.0, 10.0, 0.1)
    ensures setting == "chromaticAberration" ==> r == Range(0.0, 10.0, 0.1)
    ensures setting == "contrast" ==> r == Range(0.0, 3.0, 0.1)
    ensures setting == "exposure" ==> r == Range(0.0, 5.0, 0.1)
    ensures setting !in {"grain", "vignette", "chromaticAberration", "contrast", "exposure"} ==> r == Range(0.0, 100.0, 1.0)
  {
    if setting in PipelineRanges then PipelineRanges[setting] else Range(0.0, 100.0, 1.0)
  }

  // ---------------------------------------------------------------- asset browser

  /** `openAssetBrowser`. */
  function OpenAssetBrowser(st: EditorState, forIndex: Option<int>, field: Option<AssetField>): (r: EditorState)
    ensures r.showAssetModal
    ensures field.None? ==> r.selectingAssetFor.None?
    ensures field.Some? ==> r.selectingAssetFor == Some(AssetSelection(forIndex, field.value))
  {
    st.(selectingAssetFor := if field.Some? then Some(AssetSelection(forIndex, field.value)) else None,
        showAssetModal := true)
  }

  /** `swapEntityModel`: the new model, no entity key, blank animation
      names; `engineAnims` is what the running level reports, if any. */
  function SwapEntityModel(st: EditorState, index: int, assetPath: string, engineAnims: Option<seq<string>>): (r: EditorState)
    requires ValidIndex(st.config.entities, index)
    ensures |r.config.entities| == |st.config.entities|
    ensures r.config.entities[index] ==
      st.config.entities[index].(asset := Some(assetPath), entityKey := None, animations := Some(AnimNames("", "")))
    ensures forall j :: 0 <= j < |st.config.entities| && j != index ==> r.config.entities[j] == st.config.entities[j]
    ensures r.config == st.config.(entities := r.config.entities)
    ensures r.currentEntityAnims == engineAnims.GetOr(st.currentEntityAnims)
    ensures r == st.(config := r.config, currentEntityAnims := r.currentEntityAnims)
  {
    var e := st.config.entities[index];
    var e' := e.(asset := Some(assetPath), entityKey := None, animations := Some(AnimNames("", "")));
    st.(config := st.config.(entities := st.config.entities[index := e']),
        currentEntityAnims := if engineAnims.Some? then engineAnims.value else st.currentEntityAnims)
  }

  /** `onAssetSelected`: with no target the asset becomes a new prop;
      otherwise it goes to the field being picked, and the browser closes. */
  function OnAssetSelected(st: EditorState, assetPath: string, engineAnims: Option<seq<string>>): (r: EditorState)
    ensures !r.showAssetModal && r.selectingAssetFor.None?
    ensures st.selectingAssetFor.None? ==> r == AddProp(st, assetPath)
    ensures st.selectingAssetFor.Some? && st.selectingAssetFor.value.field == MusicField ==>
      r.config == st.config.(music := Some(assetPath))
    ensures st.selectingAssetFor.Some? && st.selectingAssetFor.value.field == EnvironmentField ==>
      r.config == st.config.(environmentAsset := assetPath)
    ensures st.selectingAssetFor.Some? && st.selectingAssetFor.value.field in {EntityField, AssetPathField} ==>
      var i := st.selectingAssetFor.value.index;
      (i.None? || !ValidIndex(st.config.entities, i.value) ==> r.config == st.config) &&
      (i.Some? && ValidIndex(st.config.entities, i.value) ==>
        |r.config.entities| == |st.config.entities| &&
        r.config.entities[i.value].asset == Some(assetPath) &&
        r.config == st.config.(entities := r.config.entities) &&
        forall j :: 0 <= j < |st.config.entities| && j != i.value ==> r.config.entities[j] == st.config.entities[j])
    ensures st.selectingAssetFor.Some? && st.selectingAssetFor.value.field == EntityField &&
            st.selectingAssetFor.value.index.Some? && ValidIndex(st.config.entities, st.selectingAssetFor.value.index.value) ==>
      var i := st.selectingAssetFor.value.index.value;
      r.config.entities[i] ==
        st.config.entities[i].(asset := Some(assetPath), entityKey := None, animations := Some(AnimNames("", ""))) &&
      r.currentEntityAnims == engineAnims.GetOr(st.currentEntityAnims)
    ensures st.selectingAssetFor.Some? && st.selectingAssetFor.value.field == AssetPathField &&
            st.selectingAssetFor.value.index.Some? && ValidIndex(st.config.entities, st.selectingAssetFor.value.index.value) ==>
      var i := st.selectingAssetFor.value.index.value;
      r.config.entities[i] == st.config.entities[i].(asset := Some(assetPath)) &&
      r.currentEntityAnims == st.currentEntityAnims
  {
    match st.selectingAssetFor
    case None => AddProp(st, assetPath)
    case Some(sel) =>
      var st' :=
        match sel.field
        case MusicField => st.(config := st.config.(music := Some(assetPath)))
        case EnvironmentField => st.(config := st.config.(environmentAsset := assetPath))
        case EntityField =>
          if sel.index.Some? && ValidIndex(st.config.entities, sel.index.value)
          then SwapEntityModel(st, sel.index.value, assetPath, engineAnims)
          else st
        case AssetPathField =>
          if sel.index.Some? && ValidIndex(st.config.entities, sel.index.value)
          then
            var e := st.config.entities[sel.index.value];
            st.(config := st.config.(entities := st.config.entities[sel.index.value := e.(asset := Some(assetPath))]))
          else st;
      st'.(selectingAssetFor := None, showAssetModal := false)
  }
}

=== FILE: editor_text.dfy ===
/** The string helpers of the level editor (src/components/editor/EditorLogic.ts):
    asset display names, `#rrggbb` colours at byte level, camelCase to title
    text, and the case-insensitive asset search. */
module EditorText {
  import opened Wrappers
  import opened Strings

  // ---------------------------------------------------------------- names

  /** `extractAssetName`: "Unknown" for the empty path, otherwise the first
      "/assets/", then the first ".glb", then the first ".mp3" removed. */
  function ExtractAssetName(path: string): (r: string)
    ensures path == "" ==> r == "Unknown"
    ensures path != "" ==> |r| <= |path|
  {
    if path == "" then "Unknown"
    else RemoveFirst(RemoveFirst(RemoveFirst(path, "/assets/"), ".glb"), ".mp3")
  }

  /** A name in which none of the three stripped literals occurs. */
  predicate IsPlainName(n: string) {
    !Contains(n, "/assets/") && !Contains(n, ".glb") && !Contains(n, ".mp3")
  }

  /** Removing a prefix's first occurrence removes the prefix. */
  lemma RemovePrefix(p: string, t: string)
    ensures RemoveFirst(p + t, p) == t
  {
    PrefixOccursFirst(p, t);
    assert (p + t)[|p|..] == t;
  }

  /** Removing the first occurrence of `pat` from `n + pat` leaves `n` when
      `pat` occurs nowhere before the end of `n`. */
  lemma RemoveSuffix(n: string, pat: string)
    requires forall j :: 0 <= j < |n| ==> !OccursAt(n + pat, pat, j)
    ensures RemoveFirst(n + pat, pat) == n
  {
    assert (n + pat)[|n|..|n| + |pat|] == pat;
    assert OccursAt(n + pat, pat, |n|);
    assert IndexOf(n + pat, pat) == Some(|n|);
    assert (n + pat)[..|n|] == n;
  }

  /** A 4-character literal that starts with '.' and has no other '.'
      cannot straddle the end of a name followed by a '.'. */
  lemma NoOverlapBeforeSuffix(n: string, ext: string, pat: string)
    requires |pat| == 4 && pat[0] == '.' && pat[1] != '.' && pat[2] != '.' && pat[3] != '.'
    requires |ext| > 0 && ext[0] == '.'
    requires !Contains(n, pat)
    ensures forall j :: 0 <= j < |n| ==> !OccursAt(n + ext, pat, j)
  {
    var s := n + ext;
    forall j | 0 <= j < |n|
      ensures !OccursAt(s, pat, j)
    {
      assert !OccursAt(n, pat, j);
      if j + 4 <= |n| {
        assert s[j..j + 4] == n[j..j + 4];
      } else if j + 4 <= |s| {
        var off := |n| - j;
        assert s[|n|] == '.';
        assert s[j..j + 4][off] == s[|n|];
        assert pat[off] != '.';
      }
    }
  }

  /** A plain name followed by ".glb" loses exactly the extension. */
  lemma StripGlb(n: string)
    requires IsPlainName(n)
    ensures RemoveFirst(RemoveFirst(n + ".glb", ".glb"), ".mp3") == n
  {
    NoOverlapBeforeSuffix(n, ".glb", ".glb");
    RemoveSuffix(n, ".glb");
    assert forall i :: !OccursAt(n, ".mp3", i);
    RemoveFirstAbsent(n, ".mp3");
  }

  /** A plain name followed by ".mp3" holds no ".glb" and loses exactly the
      extension. */
  lemma StripMp3(n: string)
    requires IsPlainName(n)
    ensures RemoveFirst(RemoveFirst(n + ".mp3", ".glb"), ".mp3") == n
  {
    var s1 := n + ".mp3";
    NoOverlapBeforeSuffix(n, ".mp3", ".glb");
    forall j | |n| <= j
      ensures !OccursAt(s1, ".glb", j)
    {
      if j == |n| && j + 4 <= |s1| {
        assert s1[j..j + 4][1] == 'm';
      }
    }
    RemoveFirstAbsent(s1, ".glb");
    NoOverlapBeforeSuffix(n, ".mp3", ".mp3");
    RemoveSuffix(n, ".mp3");
  }

  /** `extractAssetName` of a non-empty path, from its three removals. */
  lemma ExtractAssetNameSteps(path: string, rest: string, n: string)
    requires path != ""
    requires RemoveFirst(path, "/assets/") == rest
    requires RemoveFirst(RemoveFirst(rest, ".glb"), ".mp3") == n
    ensures ExtractAssetName(path) == n
  {
  }

  /** The display name of a bundled asset path is the asset's own name:
      `ExtractAssetName("/assets/" + n + ext) == n` for a model or a sound. */
  lemma ExtractAssetNameOfAssetPath(n: string, ext: string)
    requires ext == ".glb" || ext == ".mp3"
    requires IsPlainName(n)
    ensures ExtractAssetName("/assets/" + n + ext) == n
  {
    var path := "/assets/" + n + ext;
    assert path == "/assets/" + (n + ext);
    RemovePrefix("/assets/", n + ext);
    if ext == ".glb" {
      StripGlb(n);
    } else {
      StripMp3(n);
    }
    ExtractAssetNameSteps(path, n + ext, n);
  }

  // ---------------------------------------------------------------- colours

  type Byte = x: int | 0 <= x < 256

  datatype Rgb = Rgb(r: Byte, g: Byte, b: Byte)

  const Black := Rgb(0, 0, 0)

  /** `[a-f\d]` under the regular expression's `i` flag. */
  predicate IsHexDigit(c: char) {
    '0' <= c <= '9' || 'a' <= c <= 'f' || 'A' <= c <= 'F'
  }

  function HexValue(c: char): (v: nat)
    requires IsHexDigit(c)
    ensures v < 16
  {
    if '0' <= c <= '9' then c as int - '0' as int
    else if 'a' <= c <= 'f' then c as int - 'a' as int + 10
    else c as int - 'A' as int + 10
  }

  /** The lowercase digit `Number.prototype.toString(16)` writes for `v`. */
  function DigitChar(v: nat): (c: char)
    requires v < 16
    ensures IsHexDigit(c) && HexValue(c) == v && !IsUpperAscii(c)
  {
    if v < 10 then ('0' as int + v) as char else ('a' as int + v - 10) as char
  }

  /** The colour language `/^#?([a-f\d]{2})([a-f\d]{2})([a-f\d]{2})$/i`. */
  predicate IsHexColor(s: string) {
    (|s| == 6 && forall i :: 0 <= i < 6 ==> IsHexDigit(s[i])) ||
    (|s| == 7 && s[0] == '#' && forall i :: 1 <= i < 7 ==> IsHexDigit(s[i]))
  }

  /** The six digits of a colour, without its optional '#'. */
  function Digits(s: string): string {
    if |s| > 0 && s[0] == '#' then s[1..] else s
  }

  function ByteAt(d: string, i: nat): Byte
    requires i + 1 < |d| && IsHexDigit(d[i]) && IsHexDigit(d[i + 1])
  {
    16 * HexValue(d[i]) + HexValue(d[i + 1])
  }

  /** The match of `hexToRgb`'s expression, as three bytes. */
  function ParseHex(s: string): (r: Option<Rgb>)
    ensures r.Some? <==> IsHexColor(s)
  {
    var d := Digits(s);
    if |d| == 6 && forall i :: 0 <= i < 6 ==> IsHexDigit(d[i]) then
      Some(Rgb(ByteAt(d, 0), ByteAt(d, 2), ByteAt(d, 4)))
    else None
  }

  /** `hexToRgb` at byte level: black for anything that is not a colour. */
  function HexToRgb(s: string): (c: Rgb)
    ensures !IsHexColor(s) ==> c == Black
  {
    ParseHex(s).GetOr(Black)
  }

  /** `Number.prototype.toString(16)` of a non-negative integer. */
  function ToHex(n: nat): (r: string)
    ensures |r| > 0
    decreases n
  {
    if n < 16 then [DigitChar(n)] else ToHex(n / 16) + [DigitChar(n % 16)]
  }

  /** `padStart(2, "0")`. */
  function PadStart2(s: string): (r: string)
    ensures |s| >= 2 ==> r == s
    ensures |s| < 2 ==> |r| == 2 && r[2 - |s|..] == s
  {
    if |s| >= 2 then s else seq(2 - |s|, _ => '0') + s
  }

  /** The two lowercase digits a byte is written as. */
  function Hex2(v: Byte): string {
    PadStart2(ToHex(v))
  }

  lemma Hex2Digits(v: Byte)
    ensures Hex2(v) == [DigitChar(v / 16), DigitChar(v % 16)]
  {
    if v < 16 {
      assert ToHex(v) == [DigitChar(v)];
      assert Hex2(v) == ['0'] + [DigitChar(v)];
    } else {
      assert ToHex(v / 16) == [DigitChar(v / 16)];
    }
  }

  /** `rgbToHex` at byte level; an absent colour is black. */
  function RgbToHex(c: Option<Rgb>): (r: string)
    ensures c.None? ==> r == "#000000"
    ensures |r| == 7 && r[0] == '#'
  {
    match c
    case None => "#000000"
    case Some(rgb) =>
      Hex2Digits(rgb.r);
      Hex2Digits(rgb.g);
      Hex2Digits(rgb.b);
      "#" + Hex2(rgb.r) + Hex2(rgb.g) + Hex2(rgb.b)
  }

  /** A byte's two digits, found at `i` in `d`, read back as the byte. */
  lemma ReadBack(d: string, i: nat, v: Byte)
    requires i + 2 <= |d| && d[i..i + 2] == Hex2(v)
    ensures IsHexDigit(d[i]) && IsHexDigit(d[i + 1]) && ByteAt(d, i) == v
  {
    Hex2Digits(v);
    assert d[i] == d[i..i + 2][0] && d[i + 1] == d[i..i + 2][1];
  }

  lemma FormattedDigits(c: Rgb)
    ensures RgbToHex(Some(c)) == "#" + (Hex2(c.r) + Hex2(c.g) + Hex2(c.b))
    ensures Digits(RgbToHex(Some(c))) == Hex2(c.r) + Hex2(c.g) + Hex2(c.b)
  {
    assert RgbToHex(Some(c)) == "#" + (Hex2(c.r) + Hex2(c.g) + Hex2(c.b));
  }

  /** The six digits a colour is written with read back as its bytes. */
  lemma FormattedBytes(c: Rgb)
    ensures var d := Hex2(c.r) + Hex2(c.g) + Hex2(c.b);
      |d| == 6 && (forall i :: 0 <= i < 6 ==> IsHexDigit(d[i])) &&
      ByteAt(d, 0) == c.r && ByteAt(d, 2) == c.g && ByteAt(d, 4) == c.b
  {
    var d := Hex2(c.r) + Hex2(c.g) + Hex2(c.b);
    Hex2Digits(c.r);
    Hex2Digits(c.g);
    Hex2Digits(c.b);
    ReadBack(d, 0, c.r);
    ReadBack(d, 2, c.g);
    ReadBack(d, 4, c.b);
  }

  /** Formatting a colour and parsing it back yields the colour. */
  lemma FormatThenParse(c: Rgb)
    ensures IsHexColor(RgbToHex(Some(c)))
    ensures ParseHex(RgbToHex(Some(c))) == Some(c)
    ensures HexToRgb(RgbToHex(Some(c))) == c
  {
    var s := RgbToHex(Some(c));
    var d := Hex2(c.r) + Hex2(c.g) + Hex2(c.b);
    assert Digits(s) == d by {
      FormattedDigits(c);
    }
    FormattedBytes(c);
    assert ParseHex(s) == Some(c);
  }

  /** The lowercase digit for a digit's value is the digit, lower-cased. */
  lemma DigitOfValue(ch: char)
    requires IsHexDigit(ch)
    ensures DigitChar(HexValue(ch)) == LowerChar(ch)
  {
  }

  lemma DivMod16(hi: nat, lo: nat)
    requires hi < 16 && lo < 16
    ensures (16 * hi + lo) / 16 == hi && (16 * hi + lo) % 16 == lo
  {
  }

  /** The byte with digits `hi` and `lo` is written as those digits. */
  lemma Hex2OfDigits(hi: nat, lo: nat)
    requires hi < 16 && lo < 16
    ensures Hex2(16 * hi + lo) == [DigitChar(hi), DigitChar(lo)]
  {
    DivMod16(hi, lo);
    Hex2Digits(16 * hi + lo);
  }

  lemma ByteDigits(d: string, i: nat)
    requires i + 1 < |d| && IsHexDigit(d[i]) && IsHexDigit(d[i + 1])
    ensures Hex2(ByteAt(d, i)) == [LowerChar(d[i]), LowerChar(d[i + 1])]
  {
    Hex2OfDigits(HexValue(d[i]), HexValue(d[i + 1]));
    DigitOfValue(d[i]);
    DigitOfValue(d[i + 1]);
  }

  lemma ParsedBytes(s: string)
    requires IsHexColor(s)
    ensures |Digits(s)| == 6 && forall i :: 0 <= i < 6 ==> IsHexDigit(Digits(s)[i])
    ensures ParseHex(s) == Some(Rgb(ByteAt(Digits(s), 0), ByteAt(Digits(s), 2), ByteAt(Digits(s), 4)))
  {
  }

  lemma LowerPairs(d: string)
    requires |d| == 6
    ensures Lower(d) == [LowerChar(d[0]), LowerChar(d[1])] + [LowerChar(d[2]), LowerChar(d[3])] + [LowerChar(d[4]), LowerChar(d[5])]
  {
  }

  /** The three bytes of six digits, written back, are the digits in lower case. */
  lemma LowerDigits(d: string)
    requires |d| == 6 && forall i :: 0 <= i < 6 ==> IsHexDigit(d[i])
    ensures Hex2(ByteAt(d, 0)) + Hex2(ByteAt(d, 2)) + Hex2(ByteAt(d, 4)) == Lower(d)
  {
    var p0, p1, p2 := [LowerChar(d[0]), LowerChar(d[1])], [LowerChar(d[2]), LowerChar(d[3])], [LowerChar(d[4]), LowerChar(d[5])];
    assert Hex2(ByteAt(d, 0)) == p0 by {
      ByteDigits(d, 0);
    }
    assert Hex2(ByteAt(d, 2)) == p1 by {
      ByteDigits(d, 2);
    }
    assert Hex2(ByteAt(d, 4)) == p2 by {
      ByteDigits(d, 4);
    }
    LowerPairs(d);
  }

  /** Parsing a colour and formatting it back yields its canonical form: a
      '#' followed by its six digits in lower case. */
  lemma ParseThenFormat(s: string)
    requires IsHexColor(s)
    ensures RgbToHex(ParseHex(s)) == "#" + Lower(Digits(s))
  {
    var d := Digits(s);
    ParsedBytes(s);
    var c := Rgb(ByteAt(d, 0), ByteAt(d, 2), ByteAt(d, 4));
    assert RgbToHex(ParseHex(s)) == "#" + (Hex2(c.r) + Hex2(c.g) + Hex2(c.b)) by {
      FormattedDigits(c);
    }
    assert Hex2(c.r) + Hex2(c.g) + Hex2(c.b) == Lower(d) by {
      LowerDigits(d);
    }
  }

  // ---------------------------------------------------------------- titles

  /** Line terminators, which the `.` in `/^./` does not match. */
  predicate IsLineTerminator(c: char) {
    c == '\n' || c == '\r' || c == '\U{2028}' || c == '\U{2029}'
  }

  /** `str.replace(/([A-Z])/g, " $1")`: a space before every uppercase letter. */
  function Spaced(s: string): (r: string)
    ensures |r| == |s| + CountUpper(s)
  {
    if |s| == 0 then ""
    else (if IsUpperAscii(s[0]) then [' ', s[0]] else [s[0]]) + Spaced(s[1..])
  }

  function CountUpper(s: string): nat {
    if |s| == 0 then 0 else (if IsUpperAscii(s[0]) then 1 else 0) + CountUpper(s[1..])
  }

  /** `.replace(/^./, s => s.toUpperCase())`. */
  function UpperFirst(s: string): (r: string)
    ensures |r| == |s|
  {
    if |s| > 0 && !IsLineTerminator(s[0]) then [UpperChar(s[0])] + s[1..] else s
  }

  /** `camelToTitle`. */
  function CamelToTitle(s: string): (r: string)
    ensures |r| == |s| + CountUpper(s)
  {
    UpperFirst(Spaced(s))
  }

  /** Drops each space that directly precedes an uppercase letter. */
  function Unspace(t: string): string {
    if |t| == 0 then ""
    else if t[0] == ' ' && |t| > 1 && IsUpperAscii(t[1]) then Unspace(t[1..])
    else [t[0]] + Unspace(t[1..])
  }

  /** The spaces `Spaced` inserts are exactly those before uppercase letters. */
  lemma {:induction false} UnspaceSpaced(s: string)
    ensures Unspace(Spaced(s)) == s
    ensures |s| > 0 ==> Spaced(s)[0] == (if IsUpperAscii(s[0]) then ' ' else s[0])
  {
    if |s| > 0 {
      UnspaceSpaced(s[1..]);
      var rest := Spaced(s[1..]);
      if IsUpperAscii(s[0]) {
        assert Spaced(s) == [' ', s[0]] + rest;
        assert Unspace(Spaced(s)) == Unspace([s[0]] + rest);
        assert ([s[0]] + rest)[1..] == rest;
      } else {
        assert Spaced(s) == [s[0]] + rest;
        if s[0] == ' ' && |rest| > 0 {
          assert !IsUpperAscii(rest[0]);
        }
        assert ([s[0]] + rest)[1..] == rest;
      }
    }
  }

  /** A title whose first character is left alone (an uppercase letter,
      which gets a space in front, or a line terminator). */
  lemma TitleKeepsFirst(s: string)
    requires |s| > 0 && (IsUpperAscii(s[0]) || IsLineTerminator(s[0]))
    ensures Unspace(CamelToTitle(s)) == UpperFirst(s)
  {
    UnspaceSpaced(s);
    assert CamelToTitle(s) == Spaced(s);
  }

  /** A title whose first character is upper-cased in place. */
  lemma TitleUppersFirst(s: string)
    requires |s| > 0 && !IsUpperAscii(s[0]) && !IsLineTerminator(s[0])
    ensures Unspace(CamelToTitle(s)) == UpperFirst(s)
  {
    UnspaceSpaced(s[1..]);
    var rest := Spaced(s[1..]);
    assert Spaced(s) == [s[0]] + rest;
    assert CamelToTitle(s) == [UpperChar(s[0])] + rest;
    assert ([UpperChar(s[0])] + rest)[1..] == rest;
    if UpperChar(s[0]) == ' ' && |rest| > 0 {
      assert !IsUpperAscii(rest[0]);
    }
  }

  /** Taking the inserted spaces out of a title gives back the input with
      its first character upper-cased. */
  lemma CamelToTitleInverse(s: string)
    ensures Unspace(CamelToTitle(s)) == UpperFirst(s)
  {
    if |s| == 0 {
    } else if IsUpperAscii(s[0]) || IsLineTerminator(s[0]) {
      TitleKeepsFirst(s);
    } else {
      TitleUppersFirst(s);
    }
  }

  // ---------------------------------------------------------------- search

  /** `a.toLowerCase().includes(query.toLowerCase())`. */
  predicate MatchesQuery(a: string, query: string) {
    Contains(Lower(a), Lower(query))
  }

  /** `list.filter(a => MatchesQuery(a, query))`. */
  function FilterByQuery(list: seq<string>, query: string): (r: seq<string>)
    ensures |r| <= |list|
    ensures forall a :: a in r <==> a in list && MatchesQuery(a, query)
  {
    if |list| == 0 then []
    else (if MatchesQuery(list[0], query) then [list[0]] else []) + FilterByQuery(list[1..], query)
  }

  /** The filter keeps order: it distributes over concatenation. */
  lemma {:induction false} FilterByQueryAppend(a: seq<string>, b: seq<string>, query: string)
    ensures FilterByQuery(a + b, query) == FilterByQuery(a, query) + FilterByQuery(b, query)
  {
    if |a| > 0 {
      assert (a + b)[1..] == a[1..] + b;
      FilterByQueryAppend(a[1..], b, query);
    } else {
      assert a + b == b;
    }
  }

  /** The empty query matches everything, so the filter's short-cut for it
      returns what the filter itself would. */
  lemma {:induction false} EmptyQueryKeepsAll(list: seq<string>)
    ensures FilterByQuery(list, "") == list
  {
    if |list| > 0 {
      EmptyIsContained(Lower(list[0]));
      assert Lower("") == "";
      EmptyQueryKeepsAll(list[1..]);
    }
  }
}

=== FILE: entities.dfy ===
/** The entity configuration table (src/game/config/entities.ts): entity
    kinds, the default `ENTITIES` table, the merge performed by
    `loadEntitiesConfig`, and the spawn-record discriminator. The network
    fetch is abstracted to its outcome. */
module Entities {
  import opened Wrappers
  import opened Geometry
  import Npcs

  datatype EntityConfig =
    | NpcConfig(asset: string, scale: real, idleAnimation: Npcs.AnimRequest, castShadow: bool)
    | PortalConfig(diameter: real, color: Vec3, lightIntensity: real, lightRange: real)

  /** The built-in `ENTITIES` table. */
  const DefaultEntities: map<string, EntityConfig> := map[
    "wife" := NpcConfig("/assets/wife.glb", 0.95, Npcs.Many(["Idle", "idle"]), true),
    "demon" := NpcConfig("/assets/Demon.glb", 2.0, Npcs.One("CharacterArmature|Idle"), true),
    "portal" := PortalConfig(1.5, Vec3(0.0, 0.8, 1.0), 5.0, 10.0)
  ]

  /** The built-in table holds the two NPCs and the portal. */
  lemma DefaultTableKinds()
    ensures DefaultEntities.Keys == {"wife", "demon", "portal"}
    ensures DefaultEntities["wife"].NpcConfig? && DefaultEntities["demon"].NpcConfig?
    ensures DefaultEntities["portal"].PortalConfig?
  {
  }

  /** How the fetch of a remote configuration ended. */
  datatype FetchOutcome =
    | NetworkFailure
    | NotOk(status: int)
    | BadJson
    | Fetched(data: map<string, EntityConfig>)

  /** `loadEntitiesConfig`: a fetched table is merged over the current one
      with `Object.assign`; every failure keeps the current table. */
  function LoadEntitiesConfig(entities: map<string, EntityConfig>, outcome: FetchOutcome): (r: map<string, EntityConfig>)
    ensures !outcome.Fetched? ==> r == entities
    ensures outcome.Fetched? ==> r.Keys == entities.Keys + outcome.data.Keys
    ensures outcome.Fetched? ==> forall k :: k in outcome.data ==> r[k] == outcome.data[k]
    ensures outcome.Fetched? ==> forall k :: k in entities && k !in outcome.data ==> r[k] == entities[k]
  {
    match outcome
    case Fetched(data) => entities + data
    case _ => entities
  }

  /** Merging the same data twice changes nothing more. */
  lemma MergeIdempotent(entities: map<string, EntityConfig>, data: map<string, EntityConfig>)
    ensures LoadEntitiesConfig(LoadEntitiesConfig(entities, Fetched(data)), Fetched(data)) ==
            LoadEntitiesConfig(entities, Fetched(data))
  {
  }

  /** The NPC keys of a table (the editor's `getAvailableEntities`). */
  function NpcKeys(entities: map<string, EntityConfig>): (r: set<string>)
    ensures forall k :: k in r <==> k in entities && entities[k].NpcConfig?
  {
    set k | k in entities && entities[k].NpcConfig?
  }

  datatype DialogueLineConfig = DialogueLineConfig(speaker: string, text: string, duration: int)

  datatype DialogueConfig = DialogueConfig(id: string, lines: seq<DialogueLineConfig>)

  /** A spawn record. A portal spawn is a record whose `entity` is "portal";
      it carries `targetLevel`, the others may carry a scale and a dialogue. */
  datatype SpawnConfig = SpawnConfig(
    entity: string,
    position: (real, real, real),
    scale: Option<real>,
    dialogue: Option<DialogueConfig>,
    interactionRadius: Option<real>,
    targetLevel: Option<string>)

  /** `isPortalSpawn`. */
  predicate IsPortalSpawn(c: SpawnConfig) {
    c.entity == "portal"
  }
}

=== FILE: factory.dfy ===
/** Entity spawning (src/factories/EntityFactory.ts): looks an NPC up in
    the entity table, loads its mesh and builds it, builds portals straight
    from their spawn record, and registers a spawn's dialogue.

    The asset manager is a parameter: `assets` maps an asset path to the
    meshes and animation groups loading it yields, and a path it lacks is a
    failed load. */
module EntityFactory {
  import opened Wrappers
  import opened Geometry
  import Npcs
  import Entities
  import Dialogues

  /** What loading a mesh file yields. */
  datatype LoadedMesh = LoadedMesh(meshes: seq<string>, groups: seq<Npcs.AnimGroup>)

  datatype Spawned = SpawnedNpc(npc: Npcs.Npc) | SpawnedPortal(position: Vec3, targetLevel: Option<string>)

  function UnknownNpc(key: string): string {
    "Unknown NPC entity: " + key
  }

  /** The error `loadMesh` raises: an empty path is refused before any
      loading, any other path that does not load is reported by name. */
  function FailedLoad(path: string): string {
    if path == "" then "Asset path is required" else "Asset load failed: " + path
  }

  /** Whether `loadMesh` yields something for `path`: the empty path is
      refused before loading. */
  predicate Loads(assets: map<string, LoadedMesh>, path: string) {
    path != "" && path in assets
  }

  /** The options an NPC gets from its table entry, with `scale` the scale
      it is built with. */
  function OptionsOf(cfg: Entities.EntityConfig, scale: real): (r: Npcs.NpcOptions)
    requires cfg.NpcConfig?
    ensures r.scale == Some(scale) && r.castShadow == Some(cfg.castShadow)
    ensures r.idleAnimation == cfg.idleAnimation && r.animations.None?
  {
    Npcs.NpcOptions(Some(scale), Some(cfg.castShadow), cfg.idleAnimation, None)
  }

  /** Whether `key` names an NPC in the table. */
  predicate IsNpcKey(entities: map<string, Entities.EntityConfig>, key: string) {
    key in entities && entities[key].NpcConfig?
  }

  /** `spawnNPC` with a given scale for the NPC: fails for a key that is
      not an NPC, for an asset that does not load and for a mesh list the
      NPC constructor rejects. */
  function BuildNpc(entities: map<string, Entities.EntityConfig>, assets: map<string, LoadedMesh>,
                    key: string, position: Vec3, scale: real): (r: Result<Npcs.Npc>)
    ensures !IsNpcKey(entities, key) ==> r == Err(UnknownNpc(key))
    ensures IsNpcKey(entities, key) && !Loads(assets, entities[key].asset) ==> r == Err(FailedLoad(entities[key].asset))
    ensures r.Ok? <==> IsNpcKey(entities, key) && Loads(assets, entities[key].asset) && |assets[entities[key].asset].meshes| > 0
    ensures r.Ok? ==>
      var data := assets[entities[key].asset];
      r.value.scale == scale && r.value.position == position && r.value.anims == data.groups &&
      r.value.mesh == data.meshes[0] && !r.value.disposed
  {
    if !IsNpcKey(entities, key) then Err(UnknownNpc(key))
    else
      var cfg := entities[key];
      if !Loads(assets, cfg.asset) then Err(FailedLoad(cfg.asset))
      else
        var data := assets[cfg.asset];
        Npcs.NewNpc(data.meshes, data.groups, position, OptionsOf(cfg, scale))
  }

  /** `spawnNPC` as written: the scale override is passed to the NPC
      constructor as an extra argument it does not take, so the table's
      scale is used whatever the spawn record says. */
  function SpawnNpcAsWritten(entities: map<string, Entities.EntityConfig>, assets: map<string, LoadedMesh>,
                             key: string, position: Vec3, scaleOverride: Option<real>): (r: Result<Npcs.Npc>)
    ensures r.Ok? ==> IsNpcKey(entities, key) && r.value.scale == entities[key].scale
  {
    if !IsNpcKey(entities, key) then Err(UnknownNpc(key))
    else BuildNpc(entities, assets, key, position, entities[key].scale)
  }

  /** `spawnNPC` as intended: the spawn record's scale, when present,
      overrides the table's. */
  function SpawnNpc(entities: map<string, Entities.EntityConfig>, assets: map<string, LoadedMesh>,
                    key: string, position: Vec3, scaleOverride: Option<real>): (r: Result<Npcs.Npc>)
    ensures r.Ok? <==> IsNpcKey(entities, key) && Loads(assets, entities[key].asset) && |assets[entities[key].asset].meshes| > 0
    ensures !IsNpcKey(entities, key) ==> r == Err(UnknownNpc(key))
    ensures r.Ok? ==> r.value.scale == (if scaleOverride.Some? then scaleOverride.value else entities[key].scale)
    ensures r.Ok? ==> r.value.position == position
  {
    if !IsNpcKey(entities, key) then Err(UnknownNpc(key))
    else BuildNpc(entities, assets, key, position, scaleOverride.GetOr(entities[key].scale))
  }

  /** Apart from the scale the two agree: same failures, same NPC. */
  lemma AsWrittenDiffersOnlyInScale(entities: map<string, Entities.EntityConfig>, assets: map<string, LoadedMesh>,
                                    key: string, position: Vec3, scaleOverride: Option<real>)
    ensures var a, c := SpawnNpcAsWritten(entities, assets, key, position, scaleOverride),
                        SpawnNpc(entities, assets, key, position, scaleOverride);
      (a.Ok? <==> c.Ok?) && (a.Err? ==> a == c) &&
      (a.Ok? ==> a.value == c.value.(scale := entities[key].scale))
  {
  }

  /** The wife spawned at scale 3 keeps the table's 0.95 as written. */
  lemma AsWrittenIgnoresSpawnScale()
    ensures var assets := map["/assets/wife.glb" := LoadedMesh(["root"], [])];
      var a := SpawnNpcAsWritten(Entities.DefaultEntities, assets, "wife", Uniform(0.0), Some(3.0));
      var c := SpawnNpc(Entities.DefaultEntities, assets, "wife", Uniform(0.0), Some(3.0));
      a.Ok? && a.value.scale == 0.95 && c.Ok? && c.value.scale == 3.0
  {
  }

  /** `spawnPortal`. */
  function SpawnPortal(position: Vec3, targetLevel: Option<string>): (r: Spawned)
    ensures r.SpawnedPortal? && r.position == position && r.targetLevel == targetLevel
  {
    SpawnedPortal(position, targetLevel)
  }

  /** A dialogue as written in a spawn record, as the dialogue manager
      stores it. */
  function ToDialogue(d: Entities.DialogueConfig): (r: Dialogues.Dialogue)
    ensures r.id == d.id && |r.lines| == |d.lines|
    ensures forall i :: 0 <= i < |d.lines| ==>
      r.lines[i] == Dialogues.Line(Some(d.lines[i].speaker), d.lines[i].text, Some(d.lines[i].duration))
  {
    Dialogues.Dialogue(d.id, seq(|d.lines|, i requires 0 <= i < |d.lines| =>
      Dialogues.Line(Some(d.lines[i].speaker), d.lines[i].text, Some(d.lines[i].duration))))
  }

  function PositionOf(c: Entities.SpawnConfig): (r: Vec3)
    ensures r.x == c.position.0 && r.y == c.position.1 && r.z == c.position.2
  {
    Vec3(c.position.0, c.position.1, c.position.2)
  }

  /** The NPC spawner of a variant: the program's, or the intended one. */
  function SpawnNpcOf(v: Dialogues.Variant, entities: map<string, Entities.EntityConfig>, assets: map<string, LoadedMesh>,
                      key: string, position: Vec3, scaleOverride: Option<real>): Result<Npcs.Npc>
  {
    if v == Dialogues.AsWritten then SpawnNpcAsWritten(entities, assets, key, position, scaleOverride)
    else SpawnNpc(entities, assets, key, position, scaleOverride)
  }

  /** `spawn`: a portal record is built directly; any other record spawns
      its NPC at the record's position and, once the NPC exists, registers
      the record's dialogue. `v` chooses the program's NPC spawner, which
      ignores the record's scale, or the corrected one. */
  function Spawn(v: Dialogues.Variant, entities: map<string, Entities.EntityConfig>, assets: map<string, LoadedMesh>,
                 dialogue: Dialogues.DialogueState, c: Entities.SpawnConfig): (r: (Result<Spawned>, Dialogues.DialogueState))
    ensures Entities.IsPortalSpawn(c) ==> r == (Ok(SpawnedPortal(PositionOf(c), c.targetLevel)), dialogue)
    ensures !Entities.IsPortalSpawn(c) ==>
      var npc := SpawnNpcOf(v, entities, assets, c.entity, PositionOf(c), c.scale);
      (r.0.Ok? <==> npc.Ok?) && (npc.Ok? ==> r.0 == Ok(SpawnedNpc(npc.value)))
    ensures !Entities.IsPortalSpawn(c) ==>
      var npc := SpawnNpcOf(v, entities, assets, c.entity, PositionOf(c), c.scale);
      r.0 == (if npc.Ok? then Ok(SpawnedNpc(npc.value)) else Err(npc.message))
    ensures !Entities.IsPortalSpawn(c) && !IsNpcKey(entities, c.entity) ==> r == (Err(UnknownNpc(c.entity)), dialogue)
    ensures r.1 != dialogue ==>
      !Entities.IsPortalSpawn(c) && r.0.Ok? && c.dialogue.Some? &&
      r.1 == Dialogues.Register(dialogue, ToDialogue(c.dialogue.value))
  {
    var position := PositionOf(c);
    if Entities.IsPortalSpawn(c) then (Ok(SpawnPortal(position, c.targetLevel)), dialogue)
    else
      var npc := SpawnNpcOf(v, entities, assets, c.entity, position, c.scale);
      if npc.Err? then (Err(npc.message), dialogue)
      else if c.dialogue.Some? then (Ok(SpawnedNpc(npc.value)), Dialogues.Register(dialogue, ToDialogue(c.dialogue.value)))
      else (Ok(SpawnedNpc(npc.value)), dialogue)
  }

  /** A successful non-portal spawn with a dialogue registers it. */
  lemma SpawnRegistersDialogue(v: Dialogues.Variant, entities: map<string, Entities.EntityConfig>, assets: map<string, LoadedMesh>,
                               dialogue: Dialogues.DialogueState, c: Entities.SpawnConfig)
    requires !Entities.IsPortalSpawn(c) && c.dialogue.Some?
    requires SpawnNpcOf(v, entities, assets, c.entity, PositionOf(c), c.scale).Ok?
    ensures var d := ToDialogue(c.dialogue.value);
      d.id in Spawn(v, entities, assets, dialogue, c).1.dialogues &&
      Spawn(v, entities, assets, dialogue, c).1.dialogues[d.id] == d
  {
  }

  /** A portal spawn depends on neither the entity table nor the assets. */
  lemma PortalIgnoresTables(v: Dialogues.Variant, e1: map<string, Entities.EntityConfig>, a1: map<string, LoadedMesh>,
                            e2: map<string, Entities.EntityConfig>, a2: map<string, LoadedMesh>,
                            dialogue: Dialogues.DialogueState, c: Entities.SpawnConfig)
    requires Entities.IsPortalSpawn(c)
    ensures Spawn(v, e1, a1, dialogue, c) == Spawn(v, e2, a2, dialogue, c)
  {
  }

  /** The program's `spawn` and the corrected one succeed and fail
      together and register the same dialogue; an NPC the program spawns
      has the table's scale and is otherwise the corrected NPC. */
  lemma SpawnVariantsAgree(entities: map<string, Entities.EntityConfig>, assets: map<string, LoadedMesh>,
                           dialogue: Dialogues.DialogueState, c: Entities.SpawnConfig)
    ensures var a, k := Spawn(Dialogues.AsWritten, entities, assets, dialogue, c),
                        Spawn(Dialogues.Corrected, entities, assets, dialogue, c);
      (a.0.Ok? <==> k.0.Ok?) && a.1 == k.1 && (a.0.Err? ==> a == k) &&
      (a.0.Ok? && a.0.value.SpawnedNpc? ==>
         k.0.value.SpawnedNpc? && a.0.value.npc.scale == entities[c.entity].scale &&
         a.0.value.npc == k.0.value.npc.(scale := entities[c.entity].scale))
  {
    if !Entities.IsPortalSpawn(c) {
      AsWrittenDiffersOnlyInScale(entities, assets, c.entity, PositionOf(c), c.scale);
    }
  }

  /** The program spawns the wife of a record asking for scale 3 at the
      table's 0.95; the corrected spawn honours the record. */
  lemma SpawnAsWrittenIgnoresScale(dialogue: Dialogues.DialogueState)
    ensures var assets := map["/assets/wife.glb" := LoadedMesh(["root"], [])];
      var c := Entities.SpawnConfig("wife", (0.0, 0.0, 0.0), Some(3.0), None, None, None);
      var a := Spawn(Dialogues.AsWritten, Entities.DefaultEntities, assets, dialogue, c).0;
      var k := Spawn(Dialogues.Corrected, Entities.DefaultEntities, assets, dialogue, c).0;
      a.Ok? && a.value.SpawnedNpc? && a.value.npc.scale == 0.95 &&
      k.Ok? && k.value.SpawnedNpc? && k.value.npc.scale == 3.0
  {
    AsWrittenIgnoresSpawnScale();
  }
}

=== FILE: input.dfy ===
/** The held-key set (src/managers/InputManager.ts). A scene is named by a
    string; `observer` records that the manager's keyboard observer is
    attached to `scene`. */
module Input {
  import opened Wrappers

  datatype KeyEventType = KeyDown | KeyUp | OtherKeyEvent

  datatype InputState = InputState(keys: set<string>, observer: bool, scene: Option<string>)

  const Initial := InputState({}, false, None)

  /** `dispose`: detaches the observer and forgets every key. */
  function Dispose(st: InputState): (r: InputState)
    ensures r.keys == {} && !r.observer && r.scene.None?
  {
    InputState({}, false, None)
  }

  /** `init`: disposes first, then observes the new scene's keyboard. */
  function Init(st: InputState, scene: string): (r: InputState)
    ensures r.keys == {} && r.observer && r.scene == Some(scene)
  {
    Dispose(st).(observer := true, scene := Some(scene))
  }

  /** A keyboard event raised by `scene`: it reaches the manager only while
      its observer is attached to that scene. */
  function OnKeyboard(st: InputState, scene: string, kind: KeyEventType, code: string): (r: InputState)
    ensures !(st.observer && st.scene == Some(scene)) ==> r == st
    ensures st.observer && st.scene == Some(scene) ==>
      r.observer == st.observer && r.scene == st.scene &&
      r.keys == (match kind
                 case KeyDown => st.keys + {code}
                 case KeyUp => st.keys - {code}
                 case OtherKeyEvent => st.keys)
  {
    if !(st.observer && st.scene == Some(scene)) then st
    else match kind
      case KeyDown => st.(keys := st.keys + {code})
      case KeyUp => st.(keys := st.keys - {code})
      case OtherKeyEvent => st
  }

  /** `isKeyDown`. */
  predicate IsKeyDown(st: InputState, code: string) {
    code in st.keys
  }

  /** A sequence of events from one scene. */
  function Replay(st: InputState, scene: string, events: seq<(KeyEventType, string)>): InputState
    decreases |events|
  {
    if |events| == 0 then st
    else Replay(OnKeyboard(st, scene, events[0].0, events[0].1), scene, events[1..])
  }

  /** The last event for a code decides whether it is held: after any run
      of events from the observed scene, a code is held iff its last down or
      up event was a down (or it was held before and no such event came). */
  lemma {:induction false} HeldIffLastWasDown(st: InputState, scene: string, events: seq<(KeyEventType, string)>, code: string)
    requires st.observer && st.scene == Some(scene)
    ensures IsKeyDown(Replay(st, scene, events), code) <==> LastIsDown(events, code, IsKeyDown(st, code))
    decreases |events|
  {
    if |events| > 0 {
      var st' := OnKeyboard(st, scene, events[0].0, events[0].1);
      HeldIffLastWasDown(st', scene, events[1..], code);
      LastIsDownStep(events, code, IsKeyDown(st, code));
    }
  }

  /** Whether the last KeyDown/KeyUp event for `code` is a KeyDown, with
      `before` standing when there is none. */
  function LastIsDown(events: seq<(KeyEventType, string)>, code: string, before: bool): bool
    decreases |events|
  {
    if |events| == 0 then before
    else
      var last := events[|events| - 1];
      if last.1 == code && last.0 == KeyDown then true
      else if last.1 == code && last.0 == KeyUp then false
      else LastIsDown(events[..|events| - 1], code, before)
  }

  /** `LastIsDown` read from the front: the first event updates `before`. */
  lemma {:induction false} LastIsDownStep(events: seq<(KeyEventType, string)>, code: string, before: bool)
    requires |events| > 0
    ensures LastIsDown(events, code, before) ==
      LastIsDown(events[1..], code,
        if events[0].1 == code && events[0].0 == KeyDown then true
        else if events[0].1 == code && events[0].0 == KeyUp then false
        else before)
    decreases |events|
  {
    if |events| > 1 {
      var init := events[..|events| - 1];
      assert init[1..] == events[1..][..|events[1..]| - 1];
      assert init[0] == events[0];
      LastIsDownStep(init, code, before);
    }
  }
}

=== FILE: levels.dfy ===
/** The level registry and level switching (src/managers/LevelManager.ts).

    A registered factory is named by a tag; a level is one instance built by
    a factory. The engine-side work of a level (`dispose`, `load`, `start`,
    `update`) is recorded as effects in a log, in the order the manager
    performs it, next to the two managers a switch cleans up. */
module Levels {
  import opened Wrappers
  import Dialogues
  import Input

  /** The `idx`-th level built, by the factory tagged `factory`. */
  datatype Level = Level(factory: string, idx: nat)

  datatype Effect =
    | StopDialogue
    | DisposeInput
    | DisposeLevel(idx: nat)
    | CreateLevel(idx: nat, factory: string)
    | LoadLevel(idx: nat)
    | StartLevel(idx: nat)
    | UpdateLevel(idx: nat)

  datatype World = World(
    factories: map<string, string>,
    current: Option<Level>,
    dialogue: Dialogues.DialogueState,
    input: Input.InputState,
    log: seq<Effect>,
    built: nat)

  function Initial(dialogue: Dialogues.DialogueState, input: Input.InputState): World {
    World(map[], None, dialogue, input, [], 0)
  }

  /** `register`: adds or replaces the factory for an id. */
  function Register(w: World, id: string, factory: string): (r: World)
    ensures r.factories == w.factories[id := factory]
    ensures id in r.factories && r.factories[id] == factory
    ensures forall other :: other in w.factories && other != id ==> other in r.factories && r.factories[other] == w.factories[other]
    ensures r.current == w.current && r.log == w.log && r.built == w.built
  {
    w.(factories := w.factories[id := factory])
  }

  /** `getCurrentLevel`. */
  function CurrentLevel(w: World): Option<Level> {
    w.current
  }

  /** The result of `load`: the world afterwards and the error it threw. */
  datatype Outcome = Outcome(world: World, error: Option<string>)

  function NotFound(id: string): string {
    "Level \"" + id + "\" not found"
  }

  /** The cleanup `load` does before building: the dialogue is stopped,
      the input released and the old level, if any, disposed. */
  function Cleanup(w: World): (r: World)
    ensures r.current.None? && !r.dialogue.active && r.input.keys == {}
    ensures r.log == w.log + [StopDialogue, DisposeInput] + (if w.current.Some? then [DisposeLevel(w.current.value.idx)] else [])
    ensures r.factories == w.factories && r.built == w.built
  {
    var w' := w.(dialogue := Dialogues.Stop(w.dialogue), input := Input.Dispose(w.input),
                 log := w.log + [StopDialogue, DisposeInput]);
    if w.current.Some? then w'.(current := None, log := w'.log + [DisposeLevel(w.current.value.idx)]) else w'
  }

  /** `load`: an unknown id throws before anything happens. Otherwise the
      world is cleaned up and a new level built, loaded and, when its
      `load` succeeds (`loads`), started; a failed load leaves the new
      level current but not started, and the call rejects. */
  function Load(w: World, id: string, loads: bool): (r: Outcome)
    ensures id !in w.factories ==> r == Outcome(w, Some(NotFound(id)))
    ensures id in w.factories ==>
      var lv := Level(w.factories[id], w.built);
      && r.world.current == Some(lv)
      && r.world.built == w.built + 1
      && r.world.factories == w.factories
      && !r.world.dialogue.active && r.world.input.keys == {} && !r.world.input.observer
      && r.world.log == Cleanup(w).log + [CreateLevel(lv.idx, lv.factory), LoadLevel(lv.idx)] + (if loads then [StartLevel(lv.idx)] else [])
      && (r.error.None? <==> loads)
  {
    if id !in w.factories then Outcome(w, Some(NotFound(id)))
    else
      var c := Cleanup(w);
      var lv := Level(w.factories[id], w.built);
      var w' := c.(current := Some(lv), built := w.built + 1,
                   log := c.log + [CreateLevel(lv.idx, lv.factory), LoadLevel(lv.idx)]);
      if loads then Outcome(w'.(log := w'.log + [StartLevel(lv.idx)]), None)
      else Outcome(w', Some("load failed"))
  }

  /** `update`: forwards to the current level, if any. */
  function Update(w: World): (r: World)
    ensures w.current.None? ==> r == w
    ensures w.current.Some? ==> r == w.(log := w.log + [UpdateLevel(w.current.value.idx)])
  {
    if w.current.Some? then w.(log := w.log + [UpdateLevel(w.current.value.idx)]) else w
  }

  // ---------------------------------------------------------------- disposal

  /** How many times level `idx` was disposed. */
  function Disposals(log: seq<Effect>, idx: nat): nat
    decreases |log|
  {
    if |log| == 0 then 0
    else Disposals(log[..|log| - 1], idx) + (if log[|log| - 1] == DisposeLevel(idx) then 1 else 0)
  }

  lemma {:induction false} DisposalsAppend(a: seq<Effect>, b: seq<Effect>, idx: nat)
    ensures Disposals(a + b, idx) == Disposals(a, idx) + Disposals(b, idx)
    decreases |b|
  {
    if |b| > 0 {
      assert (a + b)[..|a + b| - 1] == a + b[..|b| - 1];
      DisposalsAppend(a, b[..|b| - 1], idx);
    } else {
      assert a + b == a;
    }
  }

  /** Appending effects that dispose nothing keeps every count. */
  lemma DisposalsOfOthers(log: seq<Effect>, extra: seq<Effect>, idx: nat)
    requires forall k :: 0 <= k < |extra| ==> !extra[k].DisposeLevel?
    ensures Disposals(log + extra, idx) == Disposals(log, idx)
  {
    DisposalsAppend(log, extra, idx);
    NoDisposals(extra, idx);
  }

  lemma {:induction false} NoDisposals(extra: seq<Effect>, idx: nat)
    requires forall k :: 0 <= k < |extra| ==> !extra[k].DisposeLevel?
    ensures Disposals(extra, idx) == 0
    decreases |extra|
  {
    if |extra| > 0 {
      NoDisposals(extra[..|extra| - 1], idx);
    }
  }

  /** Every level is disposed at most once, the current one not yet, and
      none that has not been built. */
  ghost predicate DisposedOnce(w: World) {
    && (forall i :: Disposals(w.log, i) <= 1)
    && (forall i :: i >= w.built ==> Disposals(w.log, i) == 0)
    && (w.current.Some? ==> w.current.value.idx < w.built && Disposals(w.log, w.current.value.idx) == 0)
  }

  /** A successful or failed load disposes the previous level exactly once
      and keeps every level disposed at most once. */
  lemma LoadDisposesOnce(w: World, id: string, loads: bool)
    requires DisposedOnce(w) && id in w.factories
    ensures DisposedOnce(Load(w, id, loads).world)
    ensures w.current.Some? ==> Disposals(Load(w, id, loads).world.log, w.current.value.idx) == 1
    ensures forall i :: w.current.None? || i != w.current.value.idx ==> Disposals(Load(w, id, loads).world.log, i) == Disposals(w.log, i)
  {
    var r := Load(w, id, loads).world;
    var lv := Level(w.factories[id], w.built);
    var tail := [CreateLevel(lv.idx, lv.factory), LoadLevel(lv.idx)] + (if loads then [StartLevel(lv.idx)] else []);
    var dispose := if w.current.Some? then [DisposeLevel(w.current.value.idx)] else [];
    assert r.log == w.log + [StopDialogue, DisposeInput] + dispose + tail;
    forall i
      ensures Disposals(r.log, i) == Disposals(w.log, i) + (if w.current.Some? && i == w.current.value.idx then 1 else 0)
    {
      DisposalsOfOthers(w.log, [StopDialogue, DisposeInput], i);
      DisposalsAppend(w.log + [StopDialogue, DisposeInput], dispose, i);
      if w.current.Some? {
        assert Disposals(dispose, i) == Disposals([], i) + (if dispose[0] == DisposeLevel(i) then 1 else 0);
      }
      DisposalsOfOthers(w.log + [StopDialogue, DisposeInput] + dispose, tail, i);
    }
  }

  lemma UpdateDisposesNothing(w: World)
    requires DisposedOnce(w)
    ensures DisposedOnce(Update(w))
  {
    if w.current.Some? {
      forall i
        ensures Disposals(Update(w).log, i) == Disposals(w.log, i)
      {
        DisposalsOfOthers(w.log, [UpdateLevel(w.current.value.idx)], i);
      }
    }
  }

  datatype Command = RegisterCmd(id: string, factory: string) | LoadCmd(id: string, loads: bool) | UpdateCmd

  function Apply(w: World, c: Command): World {
    match c
    case RegisterCmd(id, f) => Register(w, id, f)
    case LoadCmd(id, loads) => Load(w, id, loads).world
    case UpdateCmd => Update(w)
  }

  function ApplyAll(w: World, cs: seq<Command>): World
    decreases |cs|
  {
    if |cs| == 0 then w else ApplyAll(Apply(w, cs[0]), cs[1..])
  }

  lemma ApplyDisposesOnce(w: World, c: Command)
    requires DisposedOnce(w)
    ensures DisposedOnce(Apply(w, c))
  {
    match c
    case RegisterCmd(id, f) =>
    case LoadCmd(id, loads) =>
      if id in w.factories {
        LoadDisposesOnce(w, id, loads);
      }
    case UpdateCmd =>
      UpdateDisposesNothing(w);
  }

  /** Over any session of registrations, loads and updates no level is
      disposed twice and the current level is never a disposed one. */
  lemma {:induction false} SessionDisposesOnce(w: World, cs: seq<Command>)
    requires DisposedOnce(w)
    ensures DisposedOnce(ApplyAll(w, cs))
    decreases |cs|
  {
    if |cs| > 0 {
      ApplyDisposesOnce(w, cs[0]);
      SessionDisposesOnce(Apply(w, cs[0]), cs[1..]);
    }
  }
}

=== FILE: npc.dfy ===
/** Non-player characters (src/entities/NPC.ts): construction from loaded
    meshes and animation groups, the animation-name matching rules, playing
    an animation by name, and disposal. Meshes are names; animation groups
    are their names plus an engine handle. */
module Npcs {
  import opened Wrappers
  import opened Strings
  import opened Geometry

  datatype AnimGroup = AnimGroup(name: string, handle: nat)

  /** The value of an `idleAnimation`/`animations.idle` request: absent, one
      name, or a list of names tried in order. */
  datatype AnimRequest = NoRequest | One(name: string) | Many(names: seq<string>)

  datatype NpcAnimations = NpcAnimations(idle: Option<string>, interact: Option<string>)

  datatype NpcOptions = NpcOptions(
    scale: Option<real>,
    castShadow: Option<bool>,
    idleAnimation: AnimRequest,
    animations: Option<NpcAnimations>)

  /** `playing` maps the index of every running group to its loop flag. */
  datatype Npc = Npc(
    mesh: string,
    anims: seq<AnimGroup>,
    position: Vec3,
    scale: real,
    shadowCasters: seq<string>,
    playing: map<nat, bool>,
    disposed: bool)

  const DefaultIdlePatterns: seq<string> := ["idle", "Idle", "CharacterArmature|Idle"]

  /** Case-insensitive substring match used by the partial and idle passes. */
  predicate MatchesInsensitive(g: AnimGroup, name: string) {
    Contains(Lower(g.name), Lower(name))
  }

  /** The first group satisfying `p`, the source's `Array.prototype.find`. */
  function FindFirst(groups: seq<AnimGroup>, p: AnimGroup -> bool): (r: Option<nat>)
    ensures r.Some? ==> r.value < |groups| && p(groups[r.value])
    ensures r.Some? ==> forall j :: 0 <= j < r.value ==> !p(groups[j])
    ensures r.None? ==> forall j :: 0 <= j < |groups| ==> !p(groups[j])
  {
    if |groups| == 0 then None
    else if p(groups[0]) then Some(0)
    else match FindFirst(groups[1..], p)
      case None => None
      case Some(i) => Some(i + 1)
  }

  /** The equality match of the exact pass. */
  predicate MatchesExact(g: AnimGroup, name: string) {
    g.name == name
  }

  /** Some group matches `name` under `m`. */
  predicate HasMatch(groups: seq<AnimGroup>, m: (AnimGroup, string) -> bool, name: string) {
    exists j :: 0 <= j < |groups| && m(groups[j], name)
  }

  /** Group `i` is what a pass with match `m` must pick: it matches the first
      requested name that matches any group, and is that name's first match. */
  predicate IsChoice(groups: seq<AnimGroup>, m: (AnimGroup, string) -> bool, names: seq<string>, i: nat)
    requires i < |groups|
  {
    exists k :: 0 <= k < |names| && m(groups[i], names[k]) &&
      (forall k' :: 0 <= k' < k ==> !HasMatch(groups, m, names[k'])) &&
      (forall j :: 0 <= j < i ==> !m(groups[j], names[k]))
  }

  /** A choice among the later names is a choice among all of them when
      the first name matches nothing. */
  lemma ChoiceShifts(groups: seq<AnimGroup>, m: (AnimGroup, string) -> bool, names: seq<string>, i: nat)
    requires |names| > 0 && i < |groups| && !HasMatch(groups, m, names[0])
    requires IsChoice(groups, m, names[1..], i)
    ensures IsChoice(groups, m, names, i)
  {
    var k :| 0 <= k < |names[1..]| && m(groups[i], names[1..][k]) &&
      (forall k' :: 0 <= k' < k ==> !HasMatch(groups, m, names[1..][k'])) &&
      (forall j :: 0 <= j < i ==> !m(groups[j], names[1..][k]));
    assert names[1..][k] == names[k + 1];
    assert forall k' :: 0 < k' <= k ==> names[k'] == names[1..][k' - 1];
  }

  /** One pass of `findAnimation`: the requested names are tried in order,
      and for the first one matching some group, its first match is taken. */
  function FindAny(groups: seq<AnimGroup>, m: (AnimGroup, string) -> bool, names: seq<string>): (r: Option<nat>)
    ensures r.None? <==> forall k :: 0 <= k < |names| ==> !HasMatch(groups, m, names[k])
    ensures r.Some? ==> r.value < |groups| && IsChoice(groups, m, names, r.value)
  {
    if |names| == 0 then None
    else match FindFirst(groups, (g: AnimGroup) => m(g, names[0]))
      case Some(i) => Some(i)
      case None =>
        var r := FindAny(groups, m, names[1..]);
        assert forall k :: 0 < k < |names| ==> names[k] == names[1..][k - 1];
        if r.Some? then
          ChoiceShifts(groups, m, names, r.value);
          r
        else r
  }

  /** The exact pass. */
  function FindExactAny(groups: seq<AnimGroup>, names: seq<string>): Option<nat> {
    FindAny(groups, MatchesExact, names)
  }

  /** The partial, case-insensitive pass. */
  function FindPartialAny(groups: seq<AnimGroup>, names: seq<string>): Option<nat> {
    FindAny(groups, MatchesInsensitive, names)
  }

  /** `findIdleByPattern`: the default idle patterns, then the first group. */
  function FindIdleByPattern(groups: seq<AnimGroup>): (r: Option<nat>)
    ensures r.None? <==> |groups| == 0
    ensures r.Some? ==> r.value < |groups|
  {
    match FindPartialAny(groups, DefaultIdlePatterns)
    case Some(i) => Some(i)
    case None => if |groups| == 0 then None else Some(0)
  }

  /** `!animationName` in the source: absent, or the empty string. */
  predicate IsFalsy(req: AnimRequest) {
    req.NoRequest? || (req.One? && req.name == "")
  }

  function RequestedNames(req: AnimRequest): seq<string> {
    match req
    case NoRequest => []
    case One(n) => [n]
    case Many(ns) => ns
  }

  /** Some requested name matches some group under `m`. */
  predicate AnyMatch(groups: seq<AnimGroup>, m: (AnimGroup, string) -> bool, names: seq<string>) {
    exists k :: 0 <= k < |names| && HasMatch(groups, m, names[k])
  }

  /** `findAnimation`: exact pass, then partial pass, then the idle patterns. */
  function FindAnimation(groups: seq<AnimGroup>, req: AnimRequest): (r: Option<nat>)
    ensures r.Some? ==> r.value < |groups|
    ensures IsFalsy(req) ==> r == FindIdleByPattern(groups)
    ensures !IsFalsy(req) && AnyMatch(groups, MatchesExact, RequestedNames(req)) ==>
      r.Some? && IsChoice(groups, MatchesExact, RequestedNames(req), r.value)
    ensures (!IsFalsy(req) && !AnyMatch(groups, MatchesExact, RequestedNames(req)) &&
             AnyMatch(groups, MatchesInsensitive, RequestedNames(req))) ==>
      r.Some? && IsChoice(groups, MatchesInsensitive, RequestedNames(req), r.value)
    ensures (!IsFalsy(req) && !AnyMatch(groups, MatchesExact, RequestedNames(req)) &&
             !AnyMatch(groups, MatchesInsensitive, RequestedNames(req))) ==>
      r == FindIdleByPattern(groups)
  {
    if IsFalsy(req) then FindIdleByPattern(groups)
    else
      var names := RequestedNames(req);
      match FindExactAny(groups, names)
      case Some(i) => Some(i)
      case None =>
        match FindPartialAny(groups, names)
        case Some(i) => Some(i)
        case None => FindIdleByPattern(groups)
  }

  /** `animations.idle` is present and non-empty. */
  predicate HasIdleName(options: NpcOptions) {
    options.animations.Some? && options.animations.value.idle.Some? && options.animations.value.idle.value != ""
  }

  /** The request the constructor resolves: a non-empty `animations.idle`
      wins over `idleAnimation` (the source's `||`). */
  function IdleRequest(options: NpcOptions): (r: AnimRequest)
    ensures HasIdleName(options) ==> r == One(options.animations.value.idle.value)
    ensures !HasIdleName(options) ==> r == options.idleAnimation
  {
    if HasIdleName(options) then One(options.animations.value.idle.value)
    else options.idleAnimation
  }

  /** The NPC constructor: fails without a root mesh; otherwise places and
      scales the root, registers shadow casters unless `castShadow` is
      false, stops every group and loops the idle animation. */
  function NewNpc(meshes: seq<string>, groups: seq<AnimGroup>, position: Vec3, options: NpcOptions): (r: Result<Npc>)
    ensures r.Err? <==> |meshes| == 0
    ensures r.Ok? ==> r.value.mesh == meshes[0] && r.value.anims == groups && r.value.position == position
    ensures r.Ok? ==> r.value.scale == (if options.scale.Some? then options.scale.value else 1.0)
    ensures r.Ok? ==> r.value.shadowCasters == (if options.castShadow == Some(false) then [] else meshes)
    ensures r.Ok? ==> !r.value.disposed && |r.value.playing| <= 1
    ensures r.Ok? && |groups| > 0 ==> exists i :: i < |groups| && r.value.playing == map[i := true]
    ensures r.Ok? ==>
      var idle := FindAnimation(groups, IdleRequest(options));
      r.value.playing == (if idle.Some? then map[idle.value := true] else map[])
  {
    if |meshes| == 0 then Err("NPC requires at least one mesh")
    else
      var idle := FindAnimation(groups, IdleRequest(options));
      Ok(Npc(
        mesh := meshes[0],
        anims := groups,
        position := position,
        scale := options.scale.GetOr(1.0),
        shadowCasters := if options.castShadow == Some(false) then [] else meshes,
        playing := if idle.Some? then map[idle.value := true] else map[],
        disposed := false))
  }

  /** `getAnimationNames`. */
  function AnimationNames(npc: Npc): (r: seq<string>)
    ensures |r| == |npc.anims|
    ensures forall i :: 0 <= i < |r| ==> r[i] == npc.anims[i].name
  {
    seq(|npc.anims|, i requires 0 <= i < |npc.anims| => npc.anims[i].name)
  }

  /** The case-sensitive match of `playAnimation`. */
  predicate MatchesPlay(g: AnimGroup, name: string) {
    g.name == name || Contains(g.name, name)
  }

  /** Group `i` is the first one `playAnimation` matches. */
  predicate IsPlayChoice(groups: seq<AnimGroup>, name: string, i: int) {
    0 <= i < |groups| && MatchesPlay(groups[i], name) &&
    forall j :: 0 <= j < i ==> !MatchesPlay(groups[j], name)
  }

  /** `playAnimation` as written: the group is started with `true` as its
      loop argument and `loop` in the additive-blending position, so the
      group always loops. Returns the new NPC and whether a group was
      started. */
  function PlayAnimationAsWritten(npc: Npc, name: string, loop: bool): (r: (Npc, bool))
    ensures !r.1 <==> npc.disposed || forall j :: 0 <= j < |npc.anims| ==> !MatchesPlay(npc.anims[j], name)
    ensures !r.1 ==> r.0 == npc
    ensures r.1 ==> exists i :: IsPlayChoice(npc.anims, name, i) && r.0 == npc.(playing := map[i := true])
  {
    if npc.disposed then (npc, false)
    else match FindFirst(npc.anims, (g: AnimGroup) => MatchesPlay(g, name))
      case None => (npc, false)
      case Some(i) => (npc.(playing := map[i := true]), true)
  }

  /** `playAnimation` as intended: the matched group loops exactly when
      `loop` asks for it. */
  function PlayAnimation(npc: Npc, name: string, loop: bool): (r: (Npc, bool))
    ensures !r.1 <==> npc.disposed || forall j :: 0 <= j < |npc.anims| ==> !MatchesPlay(npc.anims[j], name)
    ensures !r.1 ==> r.0 == npc
    ensures r.1 ==> exists i :: IsPlayChoice(npc.anims, name, i) && r.0 == npc.(playing := map[i := loop])
  {
    if npc.disposed then (npc, false)
    else match FindFirst(npc.anims, (g: AnimGroup) => MatchesPlay(g, name))
      case None => (npc, false)
      case Some(i) => (npc.(playing := map[i := loop]), true)
  }

  /** The two agree on whether and which group starts; they differ exactly
      when a group starts and `loop` is false, where the program loops it
      anyway. */
  lemma PlayAnimationVariants(npc: Npc, name: string, loop: bool)
    ensures var a, c := PlayAnimationAsWritten(npc, name, loop), PlayAnimation(npc, name, loop);
      a.1 == c.1 && a.0.playing.Keys == c.0.playing.Keys &&
      (a == c <==> !a.1 || loop) &&
      (a.1 ==> forall i :: i in a.0.playing ==> a.0.playing[i] && c.0.playing[i] == loop)
  {
    if !npc.disposed {
      var found := FindFirst(npc.anims, (g: AnimGroup) => MatchesPlay(g, name));
      if found.Some? {
        var i := found.value;
        var a, c := PlayAnimationAsWritten(npc, name, loop), PlayAnimation(npc, name, loop);
        assert a.0.playing == map[i := true] && c.0.playing == map[i := loop];
        if !loop {
          assert a.0.playing[i] != c.0.playing[i];
        }
      }
    }
  }

  /** An NPC with one group "Walk", asked to play it once: the program
      starts it looping, the intended version plays it once. */
  lemma PlayOnceLoopsAsWritten(npc: Npc)
    requires !npc.disposed && npc.anims == [AnimGroup("Walk", 0)]
    ensures PlayAnimationAsWritten(npc, "Walk", false) == (npc.(playing := map[0 := true]), true)
    ensures PlayAnimation(npc, "Walk", false) == (npc.(playing := map[0 := false]), true)
  {
    assert MatchesPlay(npc.anims[0], "Walk");
  }

  /** `stopAllAnimations`. */
  function StopAll(npc: Npc): (r: Npc)
    ensures r.playing == map[]
    ensures r == npc.(playing := map[])
  {
    npc.(playing := map[])
  }

  /** `dispose`: stops everything and marks the NPC disposed, once. */
  function Dispose(npc: Npc): (r: Npc)
    ensures r.disposed
    ensures npc.disposed ==> r == npc
    ensures !npc.disposed ==> r == npc.(playing := map[], disposed := true)
  {
    if npc.disposed then npc else StopAll(npc).(disposed := true)
  }

  /** A substring of a substring is a substring. */
  lemma OccursTransitive(s: string, t: string, u: string, i: int, j: int)
    requires OccursAt(s, t, i) && OccursAt(t, u, j)
    ensures OccursAt(s, u, i + j)
  {
    assert s[i..i + |t|] == t;
    forall n | 0 <= n < |u|
      ensures s[i + j + n] == u[n]
    {
      assert s[i + j + n] == s[i..i + |t|][j + n];
    }
    assert s[i + j..i + j + |u|] == u;
  }

  /** The group's lower-cased name contains "idle". */
  predicate NameHasIdle(g: AnimGroup) {
    Contains(Lower(g.name), "idle")
  }

  lemma IdlePatternsLower()
    ensures Lower(DefaultIdlePatterns[0]) == "idle" && Lower(DefaultIdlePatterns[1]) == "idle"
    ensures OccursAt(Lower(DefaultIdlePatterns[2]), "idle", 18)
  {
    var third := Lower(DefaultIdlePatterns[2]);
    assert third == "characterarmature|idle";
    assert third[18..22] == "idle";
  }

  /** Matching any default pattern means the name contains "idle"; the
      first two patterns match exactly those names. */
  lemma PatternsMeanIdle(g: AnimGroup)
    ensures MatchesInsensitive(g, DefaultIdlePatterns[0]) <==> NameHasIdle(g)
    ensures MatchesInsensitive(g, DefaultIdlePatterns[1]) <==> NameHasIdle(g)
    ensures MatchesInsensitive(g, DefaultIdlePatterns[2]) ==> NameHasIdle(g)
  {
    IdlePatternsLower();
    var third := Lower(DefaultIdlePatterns[2]);
    if MatchesInsensitive(g, DefaultIdlePatterns[2]) {
      var name := Lower(g.name);
      var i := IndexOf(name, third).value;
      OccursTransitive(name, third, "idle", i, 18);
    }
  }

  /** A pattern list whose first pattern matches exactly the idle names
      and whose other patterns match only idle names picks the first idle
      group, or nothing. */
  lemma FirstPatternDecides(groups: seq<AnimGroup>, p: seq<string>)
    requires |p| > 0
    requires forall j :: 0 <= j < |groups| ==> (MatchesInsensitive(groups[j], p[0]) <==> NameHasIdle(groups[j]))
    requires forall k, j :: 0 <= k < |p| && 0 <= j < |groups| && MatchesInsensitive(groups[j], p[k]) ==> NameHasIdle(groups[j])
    ensures HasIdleGroup(groups) ==>
      FindAny(groups, MatchesInsensitive, p).Some? && IsFirstIdle(groups, FindAny(groups, MatchesInsensitive, p).value)
    ensures !HasIdleGroup(groups) ==> FindAny(groups, MatchesInsensitive, p).None?
  {
    var r := FindAny(groups, MatchesInsensitive, p);
    if HasIdleGroup(groups) {
      var j0 :| 0 <= j0 < |groups| && NameHasIdle(groups[j0]);
      assert HasMatch(groups, MatchesInsensitive, p[0]);
      var k :| 0 <= k < |p| && MatchesInsensitive(groups[r.value], p[k]) &&
        (forall k' :: 0 <= k' < k ==> !HasMatch(groups, MatchesInsensitive, p[k'])) &&
        (forall j :: 0 <= j < r.value ==> !MatchesInsensitive(groups[j], p[k]));
      assert k == 0;
    } else {
      forall k | 0 <= k < |p|
        ensures !HasMatch(groups, MatchesInsensitive, p[k])
      {
      }
    }
  }

  /** The three default patterns collapse to one: `findIdleByPattern` picks
      the first group whose name contains "idle" in any case, and otherwise
      the first group. */
  lemma IdleByPatternIsFirstIdle(groups: seq<AnimGroup>)
    ensures HasIdleGroup(groups) ==>
      FindIdleByPattern(groups).Some? && IsFirstIdle(groups, FindIdleByPattern(groups).value)
    ensures !HasIdleGroup(groups) ==>
      FindIdleByPattern(groups) == (if |groups| == 0 then None else Some(0))
  {
    var p := DefaultIdlePatterns;
    forall k, j | 0 <= k < |p| && 0 <= j < |groups|
      ensures MatchesInsensitive(groups[j], p[k]) ==> NameHasIdle(groups[j])
      ensures k == 0 ==> (MatchesInsensitive(groups[j], p[0]) <==> NameHasIdle(groups[j]))
    {
      PatternsMeanIdle(groups[j]);
    }
    FirstPatternDecides(groups, p);
  }

  predicate HasIdleGroup(groups: seq<AnimGroup>) {
    exists j :: 0 <= j < |groups| && NameHasIdle(groups[j])
  }

  predicate IsFirstIdle(groups: seq<AnimGroup>, i: int) {
    0 <= i < |groups| && NameHasIdle(groups[i]) && forall j :: 0 <= j < i ==> !NameHasIdle(groups[j])
  }
}

=== FILE: player.dfy ===
/** The player character's animation state (src/entities/Player.ts): the
    name-to-group map, `playAnim`, the WASD-to-animation choice made by
    `update`, and disposal. Physics, camera and light calls are left out;
    the held keys come from the input manager's key set. */
module Players {
  import opened Wrappers
  import Npcs

  /** The animation names the player uses. The source takes them from
      src/hero_anim.ts, which is not part of this model; each is taken to be
      the name of its key. */
  const IdleNeutral := "Idle_Neutral"
  const Run := "Run"
  const RunBack := "Run_Back"
  const RunLeft := "Run_Left"
  const RunRight := "Run_Right"

  /** `anims` maps each group name to the index of its group; `playing`
      holds the indices of running groups. */
  datatype Player = Player(
    groups: seq<Npcs.AnimGroup>,
    anims: map<string, nat>,
    playing: set<nat>,
    currentAnim: Option<string>,
    disposed: bool)

  /** `i` is the last index whose group is called `name`. */
  predicate IsLastNamed(groups: seq<Npcs.AnimGroup>, name: string, i: nat) {
    i < |groups| && groups[i].name == name &&
    forall j :: i < j < |groups| ==> groups[j].name != name
  }

  /** Adding the last group to the map of the others keeps both facts. */
  lemma AnimMapExtends(groups: seq<Npcs.AnimGroup>, m: map<string, nat>)
    requires |groups| > 0
    requires var init := groups[..|groups| - 1];
      forall name :: name in m <==> exists j :: 0 <= j < |init| && init[j].name == name
    requires forall name :: name in m ==> IsLastNamed(groups[..|groups| - 1], name, m[name])
    ensures var m' := m[groups[|groups| - 1].name := |groups| - 1];
      (forall name :: name in m' <==> exists j :: 0 <= j < |groups| && groups[j].name == name) &&
      (forall name :: name in m' ==> IsLastNamed(groups, name, m'[name]))
  {
    var init := groups[..|groups| - 1];
    assert forall j :: 0 <= j < |init| ==> init[j] == groups[j];
  }

  /** `new Map(groups.map(g => [g.name, g]))`: every name maps to its group,
      and of several groups with one name the later one wins. */
  function AnimMap(groups: seq<Npcs.AnimGroup>): (m: map<string, nat>)
    ensures forall name :: name in m <==> exists j :: 0 <= j < |groups| && groups[j].name == name
    ensures forall name :: name in m ==> IsLastNamed(groups, name, m[name])
  {
    if |groups| == 0 then map[]
    else
      var m := AnimMap(groups[..|groups| - 1]);
      AnimMapExtends(groups, m);
      m[groups[|groups| - 1].name := |groups| - 1]
  }

  /** The map's entries point at real groups. */
  ghost predicate Valid(p: Player) {
    (forall name :: name in p.anims ==> IsLastNamed(p.groups, name, p.anims[name])) &&
    (p.currentAnim.Some? ==> p.currentAnim.value in p.anims)
  }

  /** `playAnim`: a no-op for the current or an unknown name; otherwise the
      current group is stopped (when the current name is non-empty) and the
      new one started. */
  function PlayAnim(p: Player, name: string): (r: Player)
    requires Valid(p)
    ensures Valid(r)
    ensures p.currentAnim == Some(name) || name !in p.anims ==> r == p
    ensures p.currentAnim != Some(name) && name in p.anims ==>
      r.currentAnim == Some(name) && p.anims[name] in r.playing &&
      r.groups == p.groups && r.anims == p.anims && r.disposed == p.disposed
    ensures p.currentAnim != Some(name) && name in p.anims && p.currentAnim.Some? && p.currentAnim.value != "" ==>
      r.playing == p.playing - {p.anims[p.currentAnim.value]} + {p.anims[name]}
    ensures p.currentAnim != Some(name) && name in p.anims && (p.currentAnim.None? || p.currentAnim == Some("")) ==>
      r.playing == p.playing + {p.anims[name]}
  {
    if p.currentAnim == Some(name) then p
    else if name !in p.anims then p
    else
      var stopped :=
        if p.currentAnim.Some? && p.currentAnim.value != "" then p.playing - {p.anims[p.currentAnim.value]}
        else p.playing;
      p.(playing := stopped + {p.anims[name]}, currentAnim := Some(name))
  }

  /** The constructor's animation part: build the map, stop every
      animation, start the neutral idle. */
  function NewPlayer(groups: seq<Npcs.AnimGroup>): (r: Player)
    ensures Valid(r) && !r.disposed
    ensures r.anims.Keys == set j | 0 <= j < |groups| :: groups[j].name
    ensures IdleNeutral in r.anims ==> r.currentAnim == Some(IdleNeutral) && r.playing == {r.anims[IdleNeutral]}
    ensures IdleNeutral !in r.anims ==> r.currentAnim.None? && r.playing == {}
  {
    var anims := AnimMap(groups);
    PlayAnim(Player(groups, anims, {}, None, false), IdleNeutral)
  }

  /** The animation `update` asks for, given the held W, A, S, D keys. */
  function ChooseAnim(w: bool, a: bool, s: bool, d: bool): (name: string)
    ensures !(w || a || s || d) <==> name == IdleNeutral
    ensures name == RunBack <==> s
    ensures name == RunLeft <==> a && !s
    ensures name == RunRight <==> d && !s && !a
    ensures name == Run <==> w && !s && !a && !d
  {
    if w || s || a || d then
      if s then RunBack else if a then RunLeft else if d then RunRight else Run
    else IdleNeutral
  }

  /** `update`: nothing after disposal; otherwise the animation chosen from
      the held key codes is played. */
  function Update(p: Player, keys: set<string>): (r: Player)
    requires Valid(p)
    ensures Valid(r)
    ensures p.disposed ==> r == p
    ensures !p.disposed ==> r == PlayAnim(p, ChooseAnim("KeyW" in keys, "KeyA" in keys, "KeyS" in keys, "KeyD" in keys))
  {
    if p.disposed then p
    else PlayAnim(p, ChooseAnim("KeyW" in keys, "KeyA" in keys, "KeyS" in keys, "KeyD" in keys))
  }

  /** `dispose`: stops every animation and sets the flag, once. */
  function Dispose(p: Player): (r: Player)
    requires Valid(p)
    ensures Valid(r) && r.disposed
    ensures p.disposed ==> r == p
    ensures !p.disposed ==> r == p.(playing := {}, disposed := true)
  {
    if p.disposed then p else p.(playing := {}, disposed := true)
  }

  /** Once disposed, no sequence of updates changes the player. */
  lemma {:induction false} DisposedIsFrozen(p: Player, inputs: seq<set<string>>)
    requires Valid(p)
    ensures UpdateAll(Dispose(p), inputs) == Dispose(p)
    decreases |inputs|
  {
    if |inputs| > 0 {
      DisposedIsFrozen(p, inputs[1..]);
    }
  }

  /** A run of frames, each with the keys held during it. */
  function UpdateAll(p: Player, inputs: seq<set<string>>): (r: Player)
    requires Valid(p)
    ensures Valid(r)
    decreases |inputs|
  {
    if |inputs| == 0 then p else UpdateAll(Update(p, inputs[0]), inputs[1..])
  }
}

=== FILE: strings.dfy ===
/** String operations the game's rules are written in: ASCII case mapping,
    substring search (`String.prototype.includes`/`indexOf`), and removal of
    the first occurrence of a literal (`String.prototype.replace(pat, "")`). */
module Strings {
  import opened Wrappers

  predicate IsUpperAscii(c: char) {
    'A' <= c <= 'Z'
  }

  predicate IsLowerAscii(c: char) {
    'a' <= c <= 'z'
  }

  /** `toLowerCase` of one character, restricted to ASCII letters. */
  function LowerChar(c: char): char {
    if IsUpperAscii(c) then (c as int + 32) as char else c
  }

  /** `toUpperCase` of one character, restricted to ASCII letters. */
  function UpperChar(c: char): char {
    if IsLowerAscii(c) then (c as int - 32) as char else c
  }

  function Lower(s: string): (r: string)
    ensures |r| == |s|
    ensures forall i :: 0 <= i < |s| ==> r[i] == LowerChar(s[i])
  {
    seq(|s|, i requires 0 <= i < |s| => LowerChar(s[i]))
  }

  /** `pat` occurs in `s` starting at index `i`. */
  predicate OccursAt(s: string, pat: string, i: int) {
    0 <= i && i + |pat| <= |s| && s[i..i + |pat|] == pat
  }

  /** The first index at or after `from` where `pat` occurs (`indexOf`). */
  function IndexOfFrom(s: string, pat: string, from: nat): (r: Option<nat>)
    requires from <= |s|
    ensures r.Some? ==> from <= r.value && OccursAt(s, pat, r.value)
    ensures r.Some? ==> forall j :: from <= j < r.value ==> !OccursAt(s, pat, j)
    ensures r.None? ==> forall j :: from <= j ==> !OccursAt(s, pat, j)
    decreases |s| - from
  {
    if from + |pat| > |s| then None
    else if s[from..from + |pat|] == pat then Some(from)
    else if from == |s| then None
    else IndexOfFrom(s, pat, from + 1)
  }

  function IndexOf(s: string, pat: string): (r: Option<nat>)
    ensures r.Some? <==> exists i :: OccursAt(s, pat, i)
    ensures r.Some? ==> OccursAt(s, pat, r.value) && forall j :: 0 <= j < r.value ==> !OccursAt(s, pat, j)
  {
    IndexOfFrom(s, pat, 0)
  }

  /** `s.includes(pat)`; the empty pattern is contained in every string. */
  predicate Contains(s: string, pat: string) {
    IndexOf(s, pat).Some?
  }

  lemma EmptyIsContained(s: string)
    ensures Contains(s, "")
  {
    assert OccursAt(s, "", 0);
  }

  /** `s.replace(pat, "")`: only the first occurrence of `pat` is removed. */
  function RemoveFirst(s: string, pat: string): (r: string)
    ensures !Contains(s, pat) ==> r == s
    ensures Contains(s, pat) ==> |r| == |s| - |pat|
    ensures Contains(s, pat) ==>
      var i := IndexOf(s, pat).value;
      r[..i] == s[..i] && r[i..] == s[i + |pat|..] && forall j :: 0 <= j < i ==> !OccursAt(s, pat, j)
  {
    match IndexOf(s, pat)
    case None => s
    case Some(i) => s[..i] + s[i + |pat|..]
  }

  /** A string in which `pat` does not occur comes back unchanged. */
  lemma RemoveFirstAbsent(s: string, pat: string)
    requires forall i :: !OccursAt(s, pat, i)
    ensures RemoveFirst(s, pat) == s
  {
  }

  /** The prefix `p + t` always has its first occurrence of `p` at index 0. */
  lemma PrefixOccursFirst(p: string, t: string)
    ensures IndexOf(p + t, p) == Some(0)
  {
    assert (p + t)[0..|p|] == p;
    assert OccursAt(p + t, p, 0);
  }
}

=== FILE: wrappers.dfy ===
/** Failure-compatible wrappers shared by the model: a value that may be
    absent (the source's `undefined`/`null`), and a value or an error (the
    source's thrown `Error`). */
module Wrappers {

  datatype Option<+T> = None | Some(value: T) {

    /** The value, or `default` when absent (the source's `??` operator). */
    function GetOr(default: T): T {
      match this
      case Some(v) => v
      case None => default
    }
  }

  datatype Result<+R> = Ok(value: R) | Err(message: string)
}

/** Plain 3-component vectors (positions, rotations, scalings). Engine
    vectors are abstracted to their three components. */
module Geometry {

  datatype Vec3 = Vec3(x: real, y: real, z: real)

  /** `[s, s, s]`: a uniform triple. */
  function Uniform(s: real): Vec3 {
    Vec3(s, s, s)
  }
}
